=== FILE: README.md ===
# Interview-experience board client: a Dafny model

This project models the client-side core of an interview-experience sharing board.
The board is a React/Redux web client where users post interview experiences and short
tweets, like them, comment on and reply to them, save posts, and manage a team page. The
model covers these parts of the client:

- **The credential refresh gate** of the shared HTTP client (`RefreshGate`). A request that
  fails with HTTP 401 "Unauthorized" (section 15.5.2 of RFC 9110) starts one renewal of
  the session cookie. Every other qualifying 401 that arrives meanwhile is parked. When
  the renewal settles, all of them are re-issued or all are rejected. The interceptor is
  an explicit state machine: failures and renewal answers are events, and what happens
  to the pending promises is a list of effects, in the order the interceptor settles them.
- **The like logic** of interviews and tweets (`InterviewSlice`, `TweetSlice`, over the
  records of `Posts`):
  - the optimistic toggle, the server confirmation and the rollback after a failure;
  - for interviews, both the list copy and the detail copy of a post.

  A like count that may be missing (`undefined`) or `null` in a server record is modelled
  exactly (`JsNumbers`): `null` reads as 0 in arithmetic, while arithmetic on a missing
  count produces NaN.
- **The comments slice** (`CommentSlice`): payload normalisation, endpoint routing, and
  the list reducers, including the conditional one-level cascade of a delete.
- **The discussion page's own copy of comments** (`Discussion`): the top-level and reply
  views, prepend on add or reply, its unconditional cascade on delete, the displayed
  count, and its like handler.
- **The post card** (`PostCard`): the saved marker and the dispatch sequences of the like
  and save buttons.
- **The developers slice and the auth slice** (`DeveloperSlice`, `AuthSlice`).
- **Small page helpers**: the saved-posts search (`SavedPosts`), the home page's query
  parameters (`Home`), the reset-password validation (`ResetPassword`), and the developer
  form (`DevelopersPage`).

Shared modules:

- `Wrappers`: optional values, results, network answers and `||` on optional strings.
- `Text`: JavaScript's `trim`, ASCII lower-casing, `includes`, UTF-16 `length` and
  decimal index strings.
- `Lists`: order-preserving filter, first match and replace-first.

Every reducer is a pure function `Reduce(state, action)`. Network calls, timers and
rendering are not modelled. A network outcome enters as a parameter:
- `Answer<T>`: the response body, or a failure with the server's message;
- an action payload.

Two behaviours of the client shape the model:

- The interceptor never marks the session invalid when the renewal fails; it only
  rejects the pending requests. Nothing links the gate to `isAuthenticated`.
- The slice's delete cascades one level, and only from a top-level comment. The
  discussion page's local delete cascades from any comment, reply or not.

## Model

| member | source | states |
|---|---|---|
| RefreshGate.ProcessQueue | src/utils/axios.js:23-29 | One effect per waiter, in queue order: every waiter's promise is resolved, releasing it for re-issue, when the renewal succeeded, and every waiter is rejected with the renewal error when it failed |
| RefreshGate.Step | src/utils/axios.js:34-80 | A failure without a response, or one the three-part guard refuses, is rejected as is and leaves the gate unchanged. A qualifying 401 during a renewal is marked retried and parked, with no new renewal. One while idle issues exactly one renewal. A renewal answer clears the flag and the queue whatever its outcome. On success each waiter is released for re-issue and then the originator is re-issued; on failure the waiters and then the originator are rejected with the renewal error. The gate invariant is preserved |
| RefreshGate.ReissuedRequestsAreMarked | src/utils/axios.js:48-68 | Every request the gate re-issues carries the retry mark |
| RefreshGate.RetryAtMostOnce | src/utils/axios.js:43-48 | A request already marked retried that fails again is rejected outright, whatever the gate is doing |
| RefreshGate.RunKeepsInv | src/utils/axios.js:18-81 | After any sequence of events the invariant holds: the flag is set iff an originator waits, the queue is empty when idle, held requests are marked, and at most one renewal is in flight |
| RefreshGate.BurstWhileRefreshing | src/utils/axios.js:51-57 | Any number of qualifying 401s during a renewal are parked in arrival order, marked retried, and issue no further renewal |
| RefreshGate.ConcurrentExpiryRenewsOnce | src/utils/axios.js:51-76 | N requests failing with 401 while idle share one renewal call. When it settles, exactly N effects are settled: the N-1 parked requests in arrival order, then the first request, all marked retried. On success each is released for re-issue, on failure each is rejected with the renewal error, and the gate is idle again |
| JsNumbers.AbsentCounts | src/features/interview/interviewSlice.js:114-120 | `?? 0` turns both absent counts into 0. In arithmetic `null` behaves as 0 while `undefined` gives NaN, for `+ d` and for `Math.max(0, c - 1)` alike |
| InterviewSlice.ToggleLike | src/features/interview/interviewSlice.js:113-122 | The flag flips. A missing or null count counts as 0. From liked the count becomes max(0, count-1), from not liked count+1. A non-negative count stays non-negative, and a consistent post stays consistent |
| InterviewSlice.SyncLike | src/features/interview/interviewSlice.js:215-220 | A copy whose flag already equals the server's is unchanged. Otherwise the flag takes the server's value and the count moves by exactly one, unclamped. A null count moves from 0 and a missing one gives NaN. Consistency is preserved |
| InterviewSlice.RollbackLike | src/features/interview/interviewSlice.js:236-244 | The flag flips and the count moves by one with the clamp at 0. A null count reads as 0, but a missing count gives NaN because there is no `?? 0` default |
| InterviewSlice.RollbackUndoesToggle | src/features/interview/interviewSlice.js:235-244 | On a consistent post (count present, non-negative, at least 1 when liked), rolling back the optimistic toggle restores flag and count exactly |
| InterviewSlice.UpdateCopies | src/features/interview/interviewSlice.js:124-134 | The first list entry with the id and the matching detail copy receive the same step. No other entry and no other field changes |
| InterviewSlice.DeleteKeepsOrder | src/features/interview/interviewSlice.js:199-202 | Deleting from two concatenated lists gives the survivors of the first followed by those of the second. A single interview stays iff its id differs |
| InterviewSlice.Reduce | src/features/interview/interviewSlice.js:138-208 | Create keeps the list. Get-all replaces list and pagination. Get-by-id pending clears the detail copy. Update replaces the detail copy and only the first matching list entry. Delete removes every entry with the id and clears the detail copy iff it matches. Rejections set the error |
| InterviewSlice.OptimisticThenRollbackRestores | src/features/interview/interviewSlice.js:232-255 | An optimistic toggle followed by the failure rollback restores the whole state, when every copy of the post is consistent |
| InterviewSlice.ConfirmationOfGuessIsNoop | src/features/interview/interviewSlice.js:211-231 | A confirmation that agrees with the optimistic guess on every copy changes nothing, so no count is adjusted twice |
| InterviewSlice.CopiesStayInAgreement | src/features/interview/interviewSlice.js:124-134 | When the list copy and the detail copy agree on flag and count, every like step leaves them agreeing |
| InterviewSlice.RunKeepsWellFormed | src/features/interview/interviewSlice.js:106-255 | From consistent records and consistent payloads, any sequence of actions keeps every count non-negative and at least 1 when liked. The unclamped sync decrement relies on this |
| TweetSlice.Flip | src/features/tweet/tweetSlice.js:107-117 | The flag flips and the count moves by one towards the new flag, without clamp. A null count moves from 0 and a missing count gives NaN. Flipping twice restores the tweet |
| TweetSlice.UpdateFirst | src/features/tweet/tweetSlice.js:109-116 | Only the first tweet with the id is changed; an absent tweet leaves the list unchanged |
| TweetSlice.ConfirmLike | src/features/tweet/tweetSlice.js:182-189 | The first matching tweet takes the server's flag. No count changes and no other tweet changes |
| TweetSlice.ApplyUpdate | src/features/tweet/tweetSlice.js:166-173 | The first tweet with the same id is replaced. The length and the other tweets are kept, and an unknown id changes nothing |
| TweetSlice.ApplyDelete | src/features/tweet/tweetSlice.js:176-179 | No survivor has the id, and every tweet with another id survives |
| TweetSlice.Reduce | src/features/tweet/tweetSlice.js:104-163 | Every pending case only sets `loading`. Every rejected case clears `loading`, records the message and keeps the list. Create prepends the new tweet, and get-all and get-user-tweets replace the list; each clears `loading` and the error. Update and delete clear `loading` and keep the error. Clearing the error changes nothing else |
| TweetSlice.DeleteKeepsOrder | src/features/tweet/tweetSlice.js:178 | Deleting from a list made of two parts gives the survivors of the first part followed by those of the second, so the order is preserved |
| TweetSlice.OptimisticThenFailureRestores | src/features/tweet/tweetSlice.js:190-197 | An optimistic like followed by the failure handler restores the state exactly when the count is present |
| TweetSlice.ConfirmationOfGuessIsNoop | src/features/tweet/tweetSlice.js:182-189 | A confirmation whose flag equals the optimistic guess changes nothing |
| CommentSlice.GetComments | src/features/comment/commentSlice.js:17-32 | An array body is taken as is. An object body yields its `comments` field, or an empty list when that is missing. A null body, or a failed request, is rejected with the server's message or "Failed to load comments" |
| CommentSlice.AddCommentEndpoint | src/features/comment/commentSlice.js:40-49 | A reply endpoint is used iff a non-empty parent id is given. The tweet endpoints are used iff the type is "tweet". The ids are passed through |
| CommentSlice.Prepend | src/features/comment/commentSlice.js:161-167 | The new comment heads the list, and a stored value that is not an array is reset to an empty list first |
| CommentSlice.ApplyUpdate | src/features/comment/commentSlice.js:170-178 | The first comment with the same id is replaced. The length and the other comments are kept, and an unknown id changes nothing |
| CommentSlice.DeleteKeepsOrder | src/features/comment/commentSlice.js:187-194 | The cascade is decided once, on the whole list. Under that decision the survivors of two concatenated parts are those of the first followed by those of the second, and a single comment stays as itself or not at all |
| CommentSlice.ApplyDelete | src/features/comment/commentSlice.js:181-195 | The comment goes. If its first occurrence is top-level, every direct reply goes too. Otherwise every comment with another id stays, including replies of replies |
| CommentSlice.Reduce | src/features/comment/commentSlice.js:134-222 | Get replaces the list. Add, reply-to-tweet and reply-to-interview each prepend their payload. Clear empties the list. Each rejected case records its message and keeps the list |
| CommentSlice.FetchStoresComments | src/features/comment/commentSlice.js:17-33 | A fetch from pending to settled: an array body becomes the stored list, an object body without comments an empty list, and a failure keeps the old list and records the server's message or "Failed to load comments" |
| CommentSlice.RunKeepsList | src/features/comment/commentSlice.js:134-222 | From an array, the stored comments stay an array under any run of actions without a fetch that brought a non-array |
| CommentSlice.WritesLeaveList | src/features/comment/commentSlice.js:161-195 | Adding, replying, editing, deleting or clearing always leaves an array, even when a non-array was stored |
| CommentSlice.DeleteTopLevelExample | src/features/comment/commentSlice.js:186-194 | In a thread where 2 and 4 reply to top-level comment 1 and 5 replies to 2, deleting 1 leaves exactly 3 and 5 in their order |
| CommentSlice.DeletingReplyKeepsOthers | src/features/comment/commentSlice.js:192 | Deleting a reply keeps every comment with another id, its own replies included: the cascade is one level and only from top-level comments |
| CommentSlice.DeletingTopLevelRemovesReplies | src/features/comment/commentSlice.js:186-194 | After deleting a top-level comment, neither it nor any direct reply to it remains |
| Discussion.Replies | src/pages/Discussion.jsx:198-204 | The replies of a comment are exactly the loaded comments whose parent is it, and none when the list is not loaded |
| Discussion.TopLevel | src/pages/Discussion.jsx:207-211 | The top-level view is exactly the loaded comments without a parent, and empty when the list is not loaded |
| Discussion.ViewsOfConcatenation | src/pages/Discussion.jsx:198-211 | Both views keep list order and multiplicity: the view of two concatenated lists is the view of the first followed by the view of the second |
| Discussion.ViewsOfOne | src/pages/Discussion.jsx:198-211 | The view of a single comment is that comment when it is top-level (or replies to the given comment), and empty otherwise; with the concatenation lemma this fixes each view exactly |
| Discussion.EveryCommentHasOneView | src/pages/Discussion.jsx:198-211 | Every loaded comment belongs to the top-level view or to its own parent's replies, and to no other comment's replies |
| Discussion.CommentCount | src/pages/Discussion.jsx:466-469 | The count shown is the loaded list's length (an empty loaded list counts 0), otherwise the tweet's `commentsCount`, otherwise 0 |
| Discussion.HandleAddComment | src/pages/Discussion.jsx:145-168 | A missing or whitespace-only draft sends nothing and changes nothing. Otherwise the trimmed draft is sent. Success prepends the new comment and clears the draft; failure changes nothing |
| Discussion.HandleReply | src/pages/Discussion.jsx:170-195 | The same for the reply draft keyed `${tweetId}-${commentId}`, and a successful reply also closes the reply box |
| Discussion.AddedCommentHeadsThread | src/pages/Discussion.jsx:150-156 | A new top-level comment heads the top-level view, and every reply view is unchanged |
| Discussion.ReplyHeadsItsParentsReplies | src/pages/Discussion.jsx:175-181 | A new reply heads its parent's reply view, and the top-level view and the other reply views are unchanged |
| Discussion.AddingRaisesCount | src/pages/Discussion.jsx:145-195 | On a loaded thread, a comment or reply that is sent and succeeds raises the count shown by one |
| Discussion.ToggleComments | src/pages/Discussion.jsx:111-124 | An open thread closes. A closed one opens, and asks for a load iff its comments are not loaded |
| Discussion.LoadComments | src/pages/Discussion.jsx:126-143 | The fetched list, or an empty list when the body has none or the request fails, becomes the tweet's loaded list; other tweets are untouched |
| Discussion.OpeningLoadsThreadOnce | src/pages/Discussion.jsx:111-143 | Opening an unloaded thread asks for a load. After the load, the top-level view is the fetched top-level comments in fetched order, the count shown is the fetched count, and closing and reopening asks for no second load |
| Discussion.ToggleTwiceRestores | src/pages/Discussion.jsx:111-124 | Toggling a thread twice gives back the page |
| Discussion.FailedLoadShowsZero | src/pages/Discussion.jsx:134-139 | A failed load marks the thread loaded and empty: the count shown is 0 whatever the tweet's `commentsCount`, and reopening asks for no retry |
| Discussion.PageDeleteKeepsOrder | src/pages/Discussion.jsx:77-79 | The page's delete on two concatenated lists gives the survivors of the first followed by those of the second. A single comment stays iff it is neither the deleted comment nor one of its replies |
| Discussion.HandleDeleteComment | src/pages/Discussion.jsx:70-86 | After a successful delete the comment and every comment whose parent it is are gone, whether or not it was top-level, and every other comment stays. A failed delete changes nothing |
| Discussion.PageCascadesFromReplies | src/pages/Discussion.jsx:75-79 | Deleting a reply removes that reply's own replies on the page, while the slice's delete keeps them |
| Discussion.HandleLikeTweet | src/pages/Discussion.jsx:88-108 | The like handler is the optimistic toggle followed by the request's own outcome in the slice; its properties are the two lemmas below |
| Discussion.ConfirmedLikeKeepsGuess | src/pages/Discussion.jsx:94-97 | A success that confirms the optimistic guess leaves the tweets in the optimistic state |
| Discussion.FailedLikeLeavesNoTrace | src/pages/Discussion.jsx:88-109 | The page's like handler adds no rollback of its own: after a failed like the tweets are exactly as before the click |
| PostCard.IsSaved | src/components/features/post/PostCard.jsx:24-28 | A post is saved iff its id is among the user's saved ids. No user, or a user without saved ids, saves nothing |
| PostCard.HandleLikeAsWritten | src/components/features/post/PostCard.jsx:30-51 | Signed out: a redirect and no dispatch. Signed in: the optimistic toggle is dispatched first, and the state is the result of the dispatched actions |
| PostCard.FailedLikeSticks | src/components/features/post/PostCard.jsx:44-46 | As written, a failed like ends in the state of the optimistic toggle alone, because the card toggles again after the slice's rollback |
| PostCard.FailedLikeSticksExample | src/components/features/post/PostCard.jsx:40-46 | As written, a signed-in viewer whose like on an unliked interview with 3 likes fails is left seeing it liked with 4 likes |
| PostCard.HandleLike | src/components/features/post/PostCard.jsx:30-51 | Corrected like button: the same redirect, optimistic toggle first, and only the request's own outcome after it |
| PostCard.FailedLikeRestores | src/features/interview/interviewSlice.js:232-255 | With the corrected button, a failed like leaves the interviews exactly as they were |
| PostCard.ConfirmedLikeKeepsGuess | src/features/interview/interviewSlice.js:211-231 | With the corrected button, a success that agrees with the guess keeps the optimistic state |
| PostCard.HandleSaveToggle | src/components/features/post/PostCard.jsx:53-67 | Signed out: a redirect and no request. Signed in: the save of this post is requested. A failure leaves the auth state unchanged. A success makes the saved marker follow the server's list |
| DeveloperSlice.ApplyUpdate | src/features/developer/developerSlice.js:157-173 | The open developer is replaced iff it has the same id. Only the first list entry with the id is replaced, and an unknown id keeps the list |
| DeveloperSlice.ApplyDelete | src/features/developer/developerSlice.js:184-197 | Every entry with the id goes and the rest stay. The open developer is closed iff it is the deleted one |
| DeveloperSlice.Reduce | src/features/developer/developerSlice.js:91-201 | Pending sets loading and clears the error, and get-by-id pending also closes the open developer. Rejected sets the error. Create prepends. Get-all replaces the list. Get-by-id opens the payload |
| DeveloperSlice.DeleteKeepsOrder | src/features/developer/developerSlice.js:189-191 | Deleting from two concatenated lists gives the survivors of the first followed by those of the second. A single developer stays iff its id differs. Together these fix order and multiplicity |
| DeveloperSlice.DeletedDeveloperIsGone | src/features/developer/developerSlice.js:184-197 | After a delete, neither the list nor the open developer holds the id |
| AuthSlice.SessionReduce | src/features/auth/authSlice.js:297-369 | Login sets the user and the session. Register stores the body and its message but stays signed out. Logout clears user and session. A failed session check clears them but keeps the error. Token refresh success sets only the flag, and its failure clears flag and user |
| AuthSlice.UserReduce | src/features/auth/authSlice.js:372-507 | A saved post replaces the user's saved ids only when a user is present. A fulfilled profile edit, the link removal included, replaces the user wholesale. Pending and rejected cases exist for the three other edits only |
| AuthSlice.RequestReduce | src/features/auth/authSlice.js:283-464 | The other actions never touch the user or the session. Clear-error resets error and message. Verify-email falls back to "Verification successful". Profile pending clears the profile. The post lists are replaced independently |
| AuthSlice.Reduce | src/features/auth/authSlice.js:279-507 | Only register, login, logout, the session check and the token refresh change the session flag. Only those (bar refresh success), a saved post and the profile edits change the user |
| AuthSlice.LoginWithoutUserBreaksSession | src/features/auth/authSlice.js:313-318 | A login whose response carries no user still sets the session flag, so the state is signed in with no user |
| AuthSlice.SessionHasUserPreserved | src/features/auth/authSlice.js:310-369 | "Signed in implies a user" survives every action that carries its user, except a successful token refresh |
| AuthSlice.RefreshRevivesSessionWithoutUser | src/features/auth/authSlice.js:363-366 | After a logout or a failed session check, a token refresh reports a session with no user |
| AuthSlice.StaysSignedOutWithoutLogin | src/features/auth/authSlice.js:293-507 | From signed out, no run without a login, a successful session check or a token refresh signs in |
| AuthSlice.RunKeepsSessionHasUser | src/features/auth/authSlice.js:293-507 | A run of actions that carry their users, without a token refresh, keeps "signed in implies a user" |
| SavedPosts.FilteredPosts | src/pages/SavedPosts.jsx:26-36 | An empty lower-cased, trimmed query lists every post. Otherwise exactly the posts whose lower-cased company, role, domain or author name contains the query are listed |
| SavedPosts.FilteredPostsKeepOrder | src/pages/SavedPosts.jsx:26 | The listed posts keep their saved order |
| SavedPosts.Empty | src/pages/SavedPosts.jsx:107-126 | The empty state shows iff nothing is loading, failed or listed. Its message depends only on whether the saved list is empty. The clear button shows iff the trimmed search is non-empty |
| SavedPosts.ClearingSearchDismissesEmpty | src/pages/SavedPosts.jsx:114-119 | With something saved, the empty state shows only for a non-blank query, and clearing the search dismisses it |
| Home.DropUndefined | src/pages/Home.jsx:38-40 | Exactly the keys with a defined value remain, each with that value |
| Home.ApiParams | src/pages/Home.jsx:31-43 | `company` is sent iff the search is non-empty. `domain` and `branch` are sent iff not "All". Values are passed unchanged and no other key is sent |
| Home.ClearFilters | src/pages/Home.jsx:151-153 | Clearing gives search "", branch "All" and domain "All", which hides the button and sends no parameter |
| Home.SameParamsIffSameFilters | src/pages/Home.jsx:32-40 | Two filter states send the same parameters iff they are the same filter state |
| ResetPassword.HandleSubmit | src/pages/ResetPassword.jsx:22-36 | The reset is dispatched, with the route token and the password, iff the entries match and the password has at least 6 UTF-16 code units. A mismatch is reported before a short password. A valid submit clears the local error |
| ResetPassword.MismatchTakesPrecedence | src/pages/ResetPassword.jsx:24-31 | An illustration of the order of the two checks that HandleSubmit states for all inputs: a short password that does not match is reported as a mismatch, and a short one that matches as too short |
| ResetPassword.LengthCountsCodeUnits | src/pages/ResetPassword.jsx:28 | Three characters outside the Basic Multilingual Plane already pass the length check |
| DevelopersPage.HandleInputChange | src/pages/Developers.jsx:128-139 | A dotted name "p.c" sets entry c of the nested object p and keeps p's other entries; a missing p starts empty, and a text p is spread by character. An undotted name sets that top-level field. All other top-level fields are kept |
| DevelopersPage.SplitJoin | src/pages/Developers.jsx:130-131 | Splitting "p.c" at its first dot gives back p and c, when p has no dot |
| DevelopersPage.CharKeys | src/pages/Developers.jsx:133 | Spreading a string gives one entry per index, keyed by the index in decimal and holding that character |
| DevelopersPage.SocialLinkEdit | src/pages/Developers.jsx:128-135 | On the initial form, a social-link input changes exactly that link |
| DevelopersPage.TextParentIsSpread | src/pages/Developers.jsx:131-134 | "name.x" on a name "ab" gives {"0": "a", "1": "b", "x": value} |
| DevelopersPage.HandleAddNew | src/pages/Developers.jsx:55-62 | The initial form, no photo or preview, not in edit mode, nothing selected, form open |
| DevelopersPage.HandleEdit | src/pages/Developers.jsx:64-79 | The form has the initial form's fields and link names, with the developer's name. A missing or empty role becomes "Full Stack Developer". Each link is the developer's link when present and non-empty, otherwise "". The preview is the photo URL iff it is non-empty. Edit mode is on with the developer selected and the form open |
| DevelopersPage.EditOfBareDeveloperLooksNew | src/pages/Developers.jsx:55-79 | Editing a developer with no role, links or photo shows the new-developer form with the name filled in, differing only in edit mode and selection |
| DevelopersPage.IsAdmin | src/pages/Developers.jsx:40 | A user may manage the team iff its role is "admin" or it carries the admin flag |
| Text.DecimalRoundTrip | src/pages/Developers.jsx:133 | Reading back the decimal form of an index gives the index, so distinct indices give distinct spread keys |
| Text.Trim | src/pages/SavedPosts.jsx:27 | `trim` gives the slice of the input with only whitespace before and after it, which neither starts nor ends with whitespace, and is empty iff the input is all whitespace |
| Text.TrimIsDetermined | src/pages/Discussion.jsx:146-147 | Any string meeting the contract of `trim` on an input is the trimmed input, so the contract fixes the result |

## Left out

- The axios instance itself: cookies, `baseURL` selection and the promise machinery. Re-issues and rejections are effects in the order the interceptor settles them; the order in which re-issued requests later complete is not modelled.
- RefreshGate.Step: the effect order is not the order in which requests go out on success. A waiter's re-issue runs in its promise's `.then` callback, a microtask, so the originator's synchronous `return api(originalRequest)` is sent before every waiter's re-issue.
- The gate's link to the session: the interceptor never dispatches `refreshToken` and never signs the user out, so the model keeps the two apart.
- Endpoint wrappers (`*Api.js`) and the store wiring: each thunk's network call is an `Answer` parameter, or a payload on a fulfilled action.
- Timers and side effects: the home search debounce, heart animations, notifications, `window.confirm`, `alert` and console logging.
- Rendering, routing and modals, apart from the redirect flags of the post card.
- File uploads and blob previews of the developer form, and its submit (FormData building).
- Thin orchestration pages: profile, post detail, edit and write forms, the auth, forgot-password and verify-email pages.
- Object identity under Immer: the interview detail copy is always a slot distinct from the list entry, so it is toggled iff its id matches.
- Text.Lower: only ASCII letters are lower-cased; Unicode case mapping is not modelled.
- Text.IsJsWhitespace: the fixed set of ECMAScript white-space and line-terminator characters; the Unicode "Zs" category is listed explicitly, not derived.
- Posts.Post: `isLiked` is a boolean. A record missing the flag (`undefined`) is not modelled; the interview sync would treat it as different from `false`.
- Discussion.CommentCount: `commentsCount` is a present integer, or absent (missing or `null`, which `|| 0` treats alike). A NaN or a non-number count is not modelled.
- Discussion.HandleDeleteComment: requires the tweet's comments to be loaded. The page only offers delete on a shown, and so loaded, thread, and on an unloaded one the page's `filter` call would throw.
- DevelopersPage.CharKeys: spreads a string by character, one key per Unicode scalar value. JavaScript spreads by UTF-16 code unit, so a character outside the Basic Multilingual Plane would give two keys, each a lone surrogate that a Dafny `char` cannot hold. The form's only dotted inputs have a nested-object parent, so the text path is not reached on this page.
- CommentSlice.Comment: a parent id is present or missing. An empty-string parent, which JavaScript treats as falsy, is not modelled.
- AuthSlice.Reduce: only the session flag and the user are framed per action; the other fields are stated by the three case functions.
- The interview slice exports two action creators for which it has no reducer; they are not modelled.

## Findings

| source | as written | input that shows it | evidently intended | confidence | as-written member | corrected member |
|---|---|---|---|---|---|---|
| src/components/features/post/PostCard.jsx:44-46 | When the like request fails, the card dispatches the optimistic toggle again, after the slice's rejected case has already rolled the toggle back | A signed-in viewer likes an interview they have not liked, with 3 likes, and the request fails: the card ends showing it liked with 4 likes | A failed like leaves the interview as it was: not liked, 3 likes | high; not executed | PostCard.FailedLikeSticks | PostCard.FailedLikeRestores |

=== FILE: auth_slice.dfy ===
/** The auth slice: the signed-in user, the session flag, and the user's post lists. */
module AuthSlice {
  import opened Wrappers
  import opened Posts

  /** The signed-in user as the client reads it. `savedPosts` is the list of saved post ids,
      possibly missing. */
  datatype User = User(id: Id, name: string, role: Option<string>, isAdmin: bool, savedPosts: Option<seq<Id>>)

  datatype State = State(
    user: Option<User>,
    userProfile: Option<User>,
    isAuthenticated: bool,
    savedPostsData: seq<Summary>,
    myPostsData: seq<Summary>,
    loading: bool,
    error: Option<string>,
    message: Option<string>)

  const Initial: State := State(None, None, false, [], [], false, None, None)

  /** The four profile edits whose cases are grouped by matchers; the removal of the social
      links has only a fulfilled case. */
  datatype ProfileEdit = UpdateAccount | UpdateAvatar | UpdateSocialLinks | RemoveSocialLinks

  /** The slice's actions. A payload that the thunk reads from the response body is optional:
      the body may lack it. `RegisterFulfilled` carries the whole response body of the
      registration, which the slice stores as the user. */
  datatype Action =
    | ClearError
    | RegisterPending | RegisterFulfilled(body: Option<User>, bodyMessage: Option<string>) | RegisterRejected(registerError: string)
    | LoginPending | LoginFulfilled(loggedIn: Option<User>) | LoginRejected(loginError: string)
    | LogoutFulfilled
    | CurrentUserPending | CurrentUserFulfilled(current: Option<User>) | CurrentUserRejected
    | ChangePasswordPending | ChangePasswordFulfilled | ChangePasswordRejected(passwordError: string)
    | RefreshTokenFulfilled | RefreshTokenRejected
    | SavePostFulfilled(saved: Option<seq<Id>>)
    | ProfilePending | ProfileFulfilled(profile: Option<User>) | ProfileRejected(profileError: string)
    | SavedPostsPending | SavedPostsFulfilled(savedPosts: seq<Summary>) | SavedPostsRejected(savedError: string)
    | MyPostsPending | MyPostsFulfilled(myPosts: seq<Summary>) | MyPostsRejected(myPostsError: string)
    | VerifyEmailPending | VerifyEmailFulfilled(verifyMessage: Option<string>) | VerifyEmailRejected(verifyError: string)
    | ForgotPasswordPending | ForgotPasswordFulfilled(forgotMessage: Option<string>) | ForgotPasswordRejected(forgotError: string)
    | ResetPasswordPending | ResetPasswordFulfilled(resetMessage: Option<string>) | ResetPasswordRejected(resetError: string)
    | EditPending(pendingEdit: ProfileEdit)
    | EditFulfilled(fulfilledEdit: ProfileEdit, edited: Option<User>)
    | EditRejected(rejectedEdit: ProfileEdit, editError: string)

  /** The actions that may change the session flag. */
  predicate TouchesSession(a: Action) {
    a.RegisterFulfilled? || a.LoginFulfilled? || a.LogoutFulfilled? || a.CurrentUserFulfilled?
    || a.CurrentUserRejected? || a.RefreshTokenFulfilled? || a.RefreshTokenRejected?
  }

  /** The actions that may replace or clear the user. */
  predicate TouchesUser(a: Action) {
    (TouchesSession(a) && !a.RefreshTokenFulfilled?) || a.SavePostFulfilled? || a.EditFulfilled?
  }

  /** `savePost.fulfilled`: the user's saved ids are replaced when a user is present. */
  function SetSavedPosts(u: Option<User>, saved: Option<seq<Id>>): (r: Option<User>)
    ensures u.None? ==> r.None?
    ensures u.Some? ==> r == Some(u.value.(savedPosts := saved))
  {
    if u.Some? then Some(u.value.(savedPosts := saved)) else None
  }

  /** A profile edit's pending and rejected cases apply to three edits; the link removal has
      none. */
  predicate HasPendingCase(e: ProfileEdit) {
    e != RemoveSocialLinks
  }

  /** The actions that sign in, sign out, or check the session. */
  function SessionReduce(s: State, a: Action): (r: State)
    requires TouchesSession(a)
    ensures r.userProfile == s.userProfile && r.savedPostsData == s.savedPostsData && r.myPostsData == s.myPostsData
    ensures a.LoginFulfilled? ==> r.user == a.loggedIn && r.isAuthenticated && r.error == None && !r.loading
    ensures a.RegisterFulfilled? ==> r.user == a.body && r.message == a.bodyMessage && !r.isAuthenticated && r.error == None
    ensures a.LogoutFulfilled? ==> r.user.None? && !r.isAuthenticated && r.error == None
    ensures a.CurrentUserFulfilled? ==> r.user == a.current && r.isAuthenticated && r.error == None
    ensures a.CurrentUserRejected? ==> r.user.None? && !r.isAuthenticated && r.error == s.error
    ensures a.RefreshTokenFulfilled? ==> r == s.(isAuthenticated := true)
    ensures a.RefreshTokenRejected? ==> r == s.(isAuthenticated := false, user := None)
  {
    match a
    case RegisterFulfilled(body, m) => s.(loading := false, user := body, message := m, isAuthenticated := false, error := None)
    case LoginFulfilled(u) => s.(loading := false, user := u, isAuthenticated := true, error := None)
    case LogoutFulfilled => s.(loading := false, user := None, isAuthenticated := false, error := None)
    case CurrentUserFulfilled(u) => s.(loading := false, isAuthenticated := true, user := u, error := None)
    case CurrentUserRejected => s.(loading := false, isAuthenticated := false, user := None)
    case RefreshTokenFulfilled => s.(isAuthenticated := true)
    case RefreshTokenRejected => s.(isAuthenticated := false, user := None)
  }

  /** The actions that change the stored user without touching the session flag: a saved
      post and the grouped profile edits. */
  function UserReduce(s: State, a: Action): (r: State)
    requires a.SavePostFulfilled? || a.EditPending? || a.EditFulfilled? || a.EditRejected?
    ensures r.isAuthenticated == s.isAuthenticated && r.message == s.message
    ensures a.SavePostFulfilled? ==> r == s.(user := SetSavedPosts(s.user, a.saved))
    ensures a.EditFulfilled? ==> r == s.(user := a.edited, loading := false, error := None)
    ensures a.EditPending? ==> r == (if HasPendingCase(a.pendingEdit) then s.(loading := true, error := None) else s)
    ensures a.EditRejected? ==> r == (if HasPendingCase(a.rejectedEdit) then s.(loading := false, error := Some(a.editError)) else s)
  {
    match a
    case SavePostFulfilled(saved) => s.(user := SetSavedPosts(s.user, saved))
    case EditPending(e) => if HasPendingCase(e) then s.(loading := true, error := None) else s
    case EditFulfilled(_, u) => s.(loading := false, user := u, error := None)
    case EditRejected(e, m) => if HasPendingCase(e) then s.(loading := false, error := Some(m)) else s
  }

  /** Every other action: request status, messages, the profile and the post lists. None of
      them touches the user or the session flag. */
  function RequestReduce(s: State, a: Action): (r: State)
    requires !TouchesSession(a) && !(a.SavePostFulfilled? || a.EditPending? || a.EditFulfilled? || a.EditRejected?)
    ensures r.user == s.user && r.isAuthenticated == s.isAuthenticated
    ensures a.ClearError? ==> r == s.(error := None, message := None)
    ensures a.VerifyEmailFulfilled? ==> r.message == Some(StringOr(a.verifyMessage, "Verification successful")) && r.error == None
    ensures a.ProfilePending? ==> r.userProfile.None? && r.loading
    ensures a.SavedPostsFulfilled? ==> r.savedPostsData == a.savedPosts && r.myPostsData == s.myPostsData
    ensures a.MyPostsFulfilled? ==> r.myPostsData == a.myPosts && r.savedPostsData == s.savedPostsData
  {
    match a
    case ClearError => s.(error := None, message := None)
    case RegisterPending => s.(loading := true, message := None)
    case RegisterRejected(e) => s.(loading := false, error := Some(e))
    case LoginPending => s.(loading := true)
    case LoginRejected(e) => s.(loading := false, error := Some(e))
    case CurrentUserPending => s.(loading := true)
    case ChangePasswordPending => s.(loading := true, error := None)
    case ChangePasswordFulfilled => s.(loading := false, error := None)
    case ChangePasswordRejected(e) => s.(loading := false, error := Some(e))
    case ProfilePending => s.(loading := true, userProfile := None)
    case ProfileFulfilled(p) => s.(loading := false, userProfile := p)
    case ProfileRejected(e) => s.(loading := false, error := Some(e))
    case SavedPostsPending => s.(loading := true, error := None)
    case SavedPostsFulfilled(ps) => s.(loading := false, savedPostsData := ps)
    case SavedPostsRejected(e) => s.(loading := false, error := Some(e))
    case MyPostsPending => s.(loading := true, error := None)
    case MyPostsFulfilled(ps) => s.(loading := false, myPostsData := ps)
    case MyPostsRejected(e) => s.(loading := false, error := Some(e))
    case VerifyEmailPending => s.(loading := true, error := None, message := None)
    case VerifyEmailFulfilled(m) => s.(loading := false, error := None, message := Some(StringOr(m, "Verification successful")))
    case VerifyEmailRejected(e) => s.(loading := false, error := Some(e))
    case ForgotPasswordPending => s.(loading := true, error := None, message := None)
    case ForgotPasswordFulfilled(m) => s.(loading := false, message := m)
    case ForgotPasswordRejected(e) => s.(loading := false, error := Some(e))
    case ResetPasswordPending => s.(loading := true, error := None, message := None)
    case ResetPasswordFulfilled(m) => s.(loading := false, message := m)
    case ResetPasswordRejected(e) => s.(loading := false, error := Some(e))
  }

  function Reduce(s: State, a: Action): (r: State)
    ensures !TouchesSession(a) ==> r.isAuthenticated == s.isAuthenticated
    ensures !TouchesUser(a) ==> r.user == s.user
  {
    if TouchesSession(a) then SessionReduce(s, a)
    else if a.SavePostFulfilled? || a.EditPending? || a.EditFulfilled? || a.EditRejected? then UserReduce(s, a)
    else RequestReduce(s, a)
  }

  /** A signed-in session has a user. */
  predicate SessionHasUser(s: State) {
    s.isAuthenticated ==> s.user.Some?
  }

  /** Whether an action brings the user the slice stores, when it stores one. */
  predicate CarriesUser(a: Action) {
    match a
    case LoginFulfilled(u) => u.Some?
    case CurrentUserFulfilled(u) => u.Some?
    case EditFulfilled(_, u) => u.Some?
    case _ => true
  }

  /** Every action that brings the user it stores keeps "signed in implies a user", except a
      successful token refresh, which sets the flag without looking at the user. */
  lemma SessionHasUserPreserved(s: State, a: Action)
    requires SessionHasUser(s) && CarriesUser(a) && !a.RefreshTokenFulfilled?
    ensures SessionHasUser(Reduce(s, a))
  {
  }

  /** After a logout or a failed session check, a token refresh alone reports the session
      as signed in while no user is stored. */
  lemma RefreshRevivesSessionWithoutUser(s: State)
    ensures var r := Reduce(Reduce(s, LogoutFulfilled), RefreshTokenFulfilled);
      r.isAuthenticated && r.user.None?
    ensures var r := Reduce(Reduce(s, CurrentUserRejected), RefreshTokenFulfilled);
      r.isAuthenticated && r.user.None?
  {
  }

  /** A login whose response body lacks the user reports a session with no user. */
  lemma LoginWithoutUserBreaksSession(s: State)
    ensures !SessionHasUser(Reduce(s, LoginFulfilled(None)))
  {
  }

  function Run(s: State, actions: seq<Action>): State
    decreases |actions|
  {
    if |actions| == 0 then s else Run(Reduce(s, actions[0]), actions[1..])
  }

  /** The session flag is only ever raised by a login, a successful session check or a
      token refresh: a run without them from a signed-out state stays signed out. */
  lemma {:induction false} StaysSignedOutWithoutLogin(s: State, actions: seq<Action>)
    requires !s.isAuthenticated
    requires forall i :: 0 <= i < |actions| ==>
      !actions[i].LoginFulfilled? && !actions[i].CurrentUserFulfilled? && !actions[i].RefreshTokenFulfilled?
    ensures !Run(s, actions).isAuthenticated
    decreases |actions|
  {
    if |actions| > 0 {
      StaysSignedOutWithoutLogin(Reduce(s, actions[0]), actions[1..]);
    }
  }

  /** A run of actions that bring their users, with no token refresh, keeps "signed in
      implies a user". */
  lemma {:induction false} RunKeepsSessionHasUser(s: State, actions: seq<Action>)
    requires SessionHasUser(s)
    requires forall i :: 0 <= i < |actions| ==> CarriesUser(actions[i]) && !actions[i].RefreshTokenFulfilled?
    ensures SessionHasUser(Run(s, actions))
    decreases |actions|
  {
    if |actions| > 0 {
      SessionHasUserPreserved(s, actions[0]);
      RunKeepsSessionHasUser(Reduce(s, actions[0]), actions[1..]);
    }
  }
}

=== FILE: comment_slice.dfy ===
/** The comments slice: the comment list of the post being viewed, fetched, added to,
    replied to, edited and deleted through the comment thunks. */
module CommentSlice {
  import opened Wrappers
  import Lists

  /** A comment; `parent` is the `parentComment` id of a reply and absent on a top-level
      comment. */
  datatype Comment = Comment(id: Id, parent: Option<Id>, author: Id, content: string)

  predicate IsTopLevel(c: Comment) {
    c.parent.None?
  }

  /** `(c) => c._id === id` */
  function HasId(id: Id): Comment -> bool {
    (c: Comment) => c.id == id
  }

  /** What `state.comments` holds: an array, or some other value a malformed fetch left there. */
  datatype Stored = List(items: seq<Comment>) | NotAnArray

  /** `response.data.data` of a comment fetch: a bare array (tweet comments), an object whose
      `comments` field may be missing or falsy (interview comments), or `null`. */
  datatype FetchBody = ArrayBody(items: seq<Comment>) | ObjectBody(comments: Option<Stored>) | NullBody

  /** The `getComments` thunk: an array is taken as is, an object yields its `comments` field
      or `[]`; reading a field of `null` throws, and like a failed request it is rejected with
      the server message or the default one. */
  function GetComments(answer: Answer<FetchBody>): (r: Result<Stored>)
    ensures answer.Answered? && answer.body.ArrayBody? ==> r == Ok(List(answer.body.items))
    ensures answer.Answered? && answer.body.ObjectBody? ==>
      r == Ok(if answer.body.comments.Some? then answer.body.comments.value else List([]))
    ensures answer.Answered? && answer.body.NullBody? ==> r == Err("Failed to load comments")
    ensures answer.Failed? ==> r == Err(StringOr(answer.serverMessage, "Failed to load comments"))
  {
    match answer
    case Answered(ArrayBody(items)) => Ok(List(items))
    case Answered(ObjectBody(comments)) => Ok(comments.GetOr(List([])))
    case Answered(NullBody) => Err("Failed to load comments")
    case Failed(m) => Err(StringOr(m, "Failed to load comments"))
  }

  /** The four comment endpoints of the API. */
  datatype Endpoint =
    | AddTweetComment(tweetId: Id)
    | ReplyToTweet(tweetId: Id, parentId: Id)
    | AddInterviewComment(interviewId: Id)
    | ReplyToInterview(interviewId: Id, parentId: Id)

  /** The routing of `addComment`: a reply endpoint exactly when a (non-empty) parent id is
      given, the tweet endpoints exactly when the type is "tweet" and the interview ones for
      any other type. */
  function AddCommentEndpoint(postId: Id, kind: string, parentCommentId: Option<Id>): (r: Endpoint)
    ensures (r.ReplyToTweet? || r.ReplyToInterview?) <==> (parentCommentId.Some? && parentCommentId.value != "")
    ensures (r.AddTweetComment? || r.ReplyToTweet?) <==> kind == "tweet"
    ensures (r.ReplyToTweet? || r.ReplyToInterview?) ==> r.parentId == parentCommentId.value
    ensures match r
      case AddTweetComment(p) => p == postId
      case ReplyToTweet(p, _) => p == postId
      case AddInterviewComment(p) => p == postId
      case ReplyToInterview(p, _) => p == postId
  {
    var reply := parentCommentId.Some? && parentCommentId.value != "";
    if kind == "tweet" then
      (if reply then ReplyToTweet(postId, parentCommentId.value) else AddTweetComment(postId))
    else
      (if reply then ReplyToInterview(postId, parentCommentId.value) else AddInterviewComment(postId))
  }

  datatype State = State(comments: Stored, loading: bool, error: Option<string>)

  const Initial: State := State(List([]), false, None)

  datatype Action =
    | ClearCommentError
    | ClearComments
    | GetPending | GetFulfilled(fetched: Stored) | GetRejected(message: string)
    | AddFulfilled(added: Comment)
    | UpdateFulfilled(updated: Comment)
    | DeleteFulfilled(deletedId: Id) | DeleteRejected(message: string)
    | ReplyToTweetFulfilled(tweetReply: Comment) | ReplyToTweetRejected(message: string)
    | ReplyToInterviewFulfilled(interviewReply: Comment) | ReplyToInterviewRejected(message: string)

  /** The list a write works on: a stored value that is not an array is reset to `[]` first. */
  function Items(st: Stored): seq<Comment> {
    if st.List? then st.items else []
  }

  /** A new comment or reply goes to the head of the list. */
  function Prepend(s: State, c: Comment): (r: State)
    ensures r.comments == List([c] + Items(s.comments))
    ensures r.loading == s.loading && r.error == s.error
  {
    s.(comments := List([c] + Items(s.comments)))
  }

  /** `updateComment.fulfilled`: the first comment with the same id is replaced; the length
      and every other comment are kept, and an unknown id changes nothing. */
  function ApplyUpdate(s: State, c: Comment): (r: State)
    ensures r.comments.List? && |r.comments.items| == |Items(s.comments)|
    ensures forall k :: Lists.IsFirst(Items(s.comments), HasId(c.id), k) ==> r.comments.items[k] == c
    ensures forall i :: 0 <= i < |Items(s.comments)| && !Lists.IsFirst(Items(s.comments), HasId(c.id), i) ==>
      r.comments.items[i] == Items(s.comments)[i]
    ensures (forall i :: 0 <= i < |Items(s.comments)| ==> Items(s.comments)[i].id != c.id) ==>
      r.comments == List(Items(s.comments))
  {
    s.(comments := List(Lists.ReplaceFirst(Items(s.comments), HasId(c.id), c)))
  }

  /** Whether deleting `id` also deletes replies: only when the first comment with that id
      exists and is top-level. */
  predicate Cascades(list: seq<Comment>, id: Id) {
    match Lists.FindFirst(list, HasId(id))
    case None => false
    case Some(k) => IsTopLevel(list[k])
  }

  /** The survivors of deleting `id`: not the comment itself, and, when the deletion
      cascades, not its direct replies. */
  function SurvivesDelete(id: Id, cascade: bool): Comment -> bool {
    (c: Comment) => c.id != id && !(cascade && c.parent == Some(id))
  }

  /** `deleteComment.fulfilled`: the comment goes; if it is a top-level comment its direct
      replies go too; replies of replies, and every other comment, stay in their order. */
  function ApplyDelete(s: State, id: Id): (r: State)
    ensures r.comments.List?
    ensures forall i :: 0 <= i < |r.comments.items| ==>
      r.comments.items[i].id != id && r.comments.items[i] in Items(s.comments)
    ensures Cascades(Items(s.comments), id) ==>
      && (forall i :: 0 <= i < |r.comments.items| ==> r.comments.items[i].parent != Some(id))
      && (forall i :: 0 <= i < |Items(s.comments)| && Items(s.comments)[i].id != id && Items(s.comments)[i].parent != Some(id) ==>
            Items(s.comments)[i] in r.comments.items)
    ensures !Cascades(Items(s.comments), id) ==>
      forall i :: 0 <= i < |Items(s.comments)| && Items(s.comments)[i].id != id ==> Items(s.comments)[i] in r.comments.items
  {
    var list := Items(s.comments);
    s.(comments := List(Lists.Filter(list, SurvivesDelete(id, Cascades(list, id)))))
  }

  /** Deleting keeps the survivors' order and multiplicity. Whether replies go is decided
      once, on the whole list; under that decision the survivors of two concatenated parts
      are the survivors of the first part followed by those of the second, and a single
      comment stays as itself or not at all. */
  lemma {:induction false} DeleteKeepsOrder(s: State, a: seq<Comment>, b: seq<Comment>, c: Comment, id: Id)
    ensures var keep := SurvivesDelete(id, Cascades(a + b, id));
      && ApplyDelete(s.(comments := List(a + b)), id).comments.items == Lists.Filter(a, keep) + Lists.Filter(b, keep)
      && Lists.Filter([c], keep) == if c.id != id && !(Cascades(a + b, id) && c.parent == Some(id)) then [c] else []
  {
    var keep := SurvivesDelete(id, Cascades(a + b, id));
    Lists.FilterAppend(a, b, keep);
    Lists.FilterPrepend(c, [], keep);
    assert [c] + [] == [c];
  }

  function Reduce(s: State, a: Action): (r: State)
    ensures a.GetFulfilled? ==> r.comments == a.fetched && !r.loading
    ensures a.GetPending? ==> r.loading && r.error == None && r.comments == s.comments
    ensures a.AddFulfilled? ==> r == Prepend(s, a.added)
    ensures a.ReplyToTweetFulfilled? ==> r == Prepend(s, a.tweetReply)
    ensures a.ReplyToInterviewFulfilled? ==> r == Prepend(s, a.interviewReply)
    ensures a.ClearComments? ==> r.comments == List([])
    ensures a.GetRejected? ==> r == s.(loading := false, error := Some(a.message))
    ensures (a.DeleteRejected? || a.ReplyToTweetRejected? || a.ReplyToInterviewRejected?) ==>
      r == s.(error := Some(a.message))
    ensures a.ClearCommentError? ==> r == s.(error := None)
  {
    match a
    case ClearCommentError => s.(error := None)
    case ClearComments => s.(comments := List([]))
    case GetPending => s.(loading := true, error := None)
    case GetFulfilled(st) => s.(loading := false, comments := st)
    case GetRejected(m) => s.(loading := false, error := Some(m))
    case AddFulfilled(c) => Prepend(s, c)
    case UpdateFulfilled(c) => ApplyUpdate(s, c)
    case DeleteFulfilled(id) => ApplyDelete(s, id)
    case DeleteRejected(m) => s.(error := Some(m))
    case ReplyToTweetFulfilled(c) => Prepend(s, c)
    case ReplyToTweetRejected(m) => s.(error := Some(m))
    case ReplyToInterviewFulfilled(c) => Prepend(s, c)
    case ReplyToInterviewRejected(m) => s.(error := Some(m))
  }

  /** The thread of the examples: comments 1 and 3 are top-level, 2 and 4 reply to 1, and
      5 replies to the reply 2. */
  const Thread: seq<Comment> := [
    Comment("4", Some("1"), "u", "d"), Comment("3", None, "u", "c"), Comment("5", Some("2"), "u", "e"),
    Comment("2", Some("1"), "u", "b"), Comment("1", None, "u", "a")]

  /** Deleting top-level comment 1 removes it and its replies 2 and 4; comment 3 and the
      reply-of-a-reply 5 stay. */
  lemma DeleteTopLevelExample()
    ensures ApplyDelete(State(List(Thread), false, None), "1").comments.items == [Thread[1], Thread[2]]
  {
    ThreadCascades();
    ThreadSurvivors();
  }

  lemma ThreadCascades()
    ensures Cascades(Thread, "1")
  {
    assert Lists.FindFirst(Thread, HasId("1")) == Some(4);
  }

  lemma ThreadKeeps()
    ensures var keep := SurvivesDelete("1", true);
      !keep(Thread[0]) && keep(Thread[1]) && keep(Thread[2]) && !keep(Thread[3]) && !keep(Thread[4])
  {
  }

  lemma ThreadSurvivors()
    ensures Lists.Filter(Thread, SurvivesDelete("1", true)) == [Thread[1], Thread[2]]
  {
    var keep := SurvivesDelete("1", true);
    ThreadKeeps();
    assert Thread[4..] == [Thread[4]] + [];
    Lists.FilterPrepend(Thread[4], [], keep);
    assert Thread[3..] == [Thread[3]] + Thread[4..];
    Lists.FilterPrepend(Thread[3], Thread[4..], keep);
    assert Thread[2..] == [Thread[2]] + Thread[3..];
    Lists.FilterPrepend(Thread[2], Thread[3..], keep);
    assert Thread[1..] == [Thread[1]] + Thread[2..];
    Lists.FilterPrepend(Thread[1], Thread[2..], keep);
    assert Thread == [Thread[0]] + Thread[1..];
    Lists.FilterPrepend(Thread[0], Thread[1..], keep);
  }

  /** Deleting a reply removes that reply and nothing else: its own replies, and every
      comment with another id, stay. */
  lemma DeletingReplyKeepsOthers(list: seq<Comment>, k: nat, c: Comment)
    requires k < |list| && Lists.IsFirst(list, HasId(list[k].id), k) && !IsTopLevel(list[k])
    requires c in list && c.id != list[k].id
    ensures c in ApplyDelete(State(List(list), false, None), list[k].id).comments.items
  {
    Lists.FirstIsUniqueAll(list, HasId(list[k].id), k);
    assert !Cascades(list, list[k].id);
  }

  /** Deleting a top-level comment removes it together with every direct reply to it. */
  lemma DeletingTopLevelRemovesReplies(list: seq<Comment>, k: nat)
    requires k < |list| && Lists.IsFirst(list, HasId(list[k].id), k) && IsTopLevel(list[k])
    ensures forall c :: c in ApplyDelete(State(List(list), false, None), list[k].id).comments.items ==>
      c.id != list[k].id && c.parent != Some(list[k].id)
  {
    Lists.FirstIsUniqueAll(list, HasId(list[k].id), k);
    assert Cascades(list, list[k].id);
  }

  /** What a settled `getComments` dispatches: its payload on success, its message on failure. */
  function Settled(r: Result<Stored>): Action {
    match r
    case Ok(st) => GetFulfilled(st)
    case Err(m) => GetRejected(m)
  }

  /** A fetch from start to end: after the pending case and the settled thunk, an array body
      is the stored list, an object body without comments leaves an empty list, and a failure
      keeps the old list and records the server's message or the default one. Loading is off
      in every case. */
  lemma FetchStoresComments(s: State, answer: Answer<FetchBody>)
    ensures var r := Reduce(Reduce(s, GetPending), Settled(GetComments(answer)));
      && !r.loading
      && (answer.Answered? && answer.body.ArrayBody? ==>
            r.comments == List(answer.body.items) && r.error == None)
      && (answer.Answered? && answer.body.ObjectBody? && answer.body.comments.None? ==>
            r.comments == List([]) && r.error == None)
      && (answer.Failed? ==>
            r.comments == s.comments && r.error == Some(StringOr(answer.serverMessage, "Failed to load comments")))
  {
  }

  function Run(s: State, actions: seq<Action>): State
    decreases |actions|
  {
    if |actions| == 0 then s else Run(Reduce(s, actions[0]), actions[1..])
  }

  /** Whether an action stores a fetched value that is not an array. */
  predicate StoresNonArray(a: Action) {
    a.GetFulfilled? && a.fetched.NotAnArray?
  }

  /** The stored comments stay an array: from an array, no run of actions other than a fetch
      that brought a non-array makes them anything else; every write case resets a non-array
      to a list. */
  lemma {:induction false} RunKeepsList(s: State, actions: seq<Action>)
    requires s.comments.List?
    requires forall i :: 0 <= i < |actions| ==> !StoresNonArray(actions[i])
    ensures Run(s, actions).comments.List?
    decreases |actions|
  {
    if |actions| > 0 {
      assert !StoresNonArray(actions[0]);
      RunKeepsList(Reduce(s, actions[0]), actions[1..]);
    }
  }

  /** Any write repairs a non-array: adding, replying, editing or deleting leaves a list. */
  lemma WritesLeaveList(s: State, a: Action)
    requires a.AddFulfilled? || a.ReplyToTweetFulfilled? || a.ReplyToInterviewFulfilled?
      || a.UpdateFulfilled? || a.DeleteFulfilled? || a.ClearComments?
    ensures Reduce(s, a).comments.List?
  {
  }
}

=== FILE: developer_slice.dfy ===
/** The developers slice: the team list and the developer open in detail. */
module DeveloperSlice {
  import opened Wrappers
  import Lists

  /** A developer's social links; each may be missing. */
  datatype Links = Links(github: Option<string>, linkedin: Option<string>, instagram: Option<string>)

  datatype Developer = Developer(
    id: Id, name: string, role: Option<string>, socialLinks: Option<Links>, photoUrl: Option<string>)

  function HasId(id: Id): Developer -> bool {
    (d: Developer) => d.id == id
  }

  function Other(id: Id): Developer -> bool {
    (d: Developer) => d.id != id
  }

  datatype State = State(developers: seq<Developer>, current: Option<Developer>, loading: bool, error: Option<string>)

  const Initial: State := State([], None, false, None)

  /** The five thunks; each has a pending, a fulfilled and a rejected action. */
  datatype Thunk = Create | GetAll | GetById | Update | Delete

  datatype Action =
    | ClearDeveloperError
    | ClearCurrentDeveloper
    | Pending(thunk: Thunk)
    | Rejected(rejected: Thunk, message: string)
    | CreateFulfilled(created: Developer)
    | GetAllFulfilled(all: seq<Developer>)
    | GetByIdFulfilled(found: Developer)
    | UpdateFulfilled(updated: Developer)
    | DeleteFulfilled(deletedId: Id)

  /** Whether the open developer has this id (`currentDeveloper?._id === id`). */
  predicate IsCurrent(s: State, id: Id) {
    s.current.Some? && s.current.value.id == id
  }

  /** `updateDeveloper.fulfilled`: the open developer is replaced iff it has the same id; in
      the list only the first entry with the id is replaced. */
  function ApplyUpdate(s: State, d: Developer): (r: State)
    ensures r.current == (if IsCurrent(s, d.id) then Some(d) else s.current)
    ensures |r.developers| == |s.developers|
    ensures forall k :: Lists.IsFirst(s.developers, HasId(d.id), k) ==> r.developers[k] == d
    ensures forall i :: 0 <= i < |s.developers| && !Lists.IsFirst(s.developers, HasId(d.id), i) ==>
      r.developers[i] == s.developers[i]
    ensures (forall i :: 0 <= i < |s.developers| ==> s.developers[i].id != d.id) ==> r.developers == s.developers
  {
    s.(loading := false, error := None,
       current := if IsCurrent(s, d.id) then Some(d) else s.current,
       developers := Lists.ReplaceFirst(s.developers, HasId(d.id), d))
  }

  /** `deleteDeveloper.fulfilled`: every entry with the id goes, the rest keep their order, and
      the open developer is closed iff it is the deleted one. */
  function ApplyDelete(s: State, id: Id): (r: State)
    ensures r.current == (if IsCurrent(s, id) then None else s.current)
    ensures forall i :: 0 <= i < |r.developers| ==> r.developers[i].id != id && r.developers[i] in s.developers
    ensures forall i :: 0 <= i < |s.developers| && s.developers[i].id != id ==> s.developers[i] in r.developers
  {
    s.(loading := false, error := None,
       developers := Lists.Filter(s.developers, Other(id)),
       current := if IsCurrent(s, id) then None else s.current)
  }

  function Reduce(s: State, a: Action): (r: State)
    ensures a.Pending? ==> r.loading && r.error == None && r.developers == s.developers
    ensures a.Pending? ==> r.current == (if a.thunk == GetById then None else s.current)
    ensures a.Rejected? ==> r == s.(loading := false, error := Some(a.message))
    ensures a.CreateFulfilled? ==> r.developers == [a.created] + s.developers && r.error == None && !r.loading
    ensures a.GetAllFulfilled? ==> r.developers == a.all && r.error == None && r.current == s.current
    ensures a.GetByIdFulfilled? ==> r.current == Some(a.found) && r.developers == s.developers
    ensures a.ClearDeveloperError? ==> r == s.(error := None)
    ensures a.ClearCurrentDeveloper? ==> r == s.(current := None)
  {
    match a
    case ClearDeveloperError => s.(error := None)
    case ClearCurrentDeveloper => s.(current := None)
    case Pending(t) => s.(loading := true, error := None, current := if t == GetById then None else s.current)
    case Rejected(_, m) => s.(loading := false, error := Some(m))
    case CreateFulfilled(d) => s.(loading := false, error := None, developers := [d] + s.developers)
    case GetAllFulfilled(ds) => s.(loading := false, error := None, developers := ds)
    case GetByIdFulfilled(d) => s.(loading := false, error := None, current := Some(d))
    case UpdateFulfilled(d) => ApplyUpdate(s, d)
    case DeleteFulfilled(id) => ApplyDelete(s, id)
  }

  /** Deleting keeps the survivors' order and multiplicity: from two concatenated lists it
      keeps the survivors of the first followed by those of the second, and a single
      developer stays as itself exactly when its id differs. */
  lemma {:induction false} DeleteKeepsOrder(s: State, a: seq<Developer>, b: seq<Developer>, d: Developer, id: Id)
    ensures ApplyDelete(s.(developers := a + b), id).developers
         == ApplyDelete(s.(developers := a), id).developers + ApplyDelete(s.(developers := b), id).developers
    ensures ApplyDelete(s.(developers := [d]), id).developers == if d.id == id then [] else [d]
  {
    Lists.FilterAppend(a, b, Other(id));
    Lists.FilterPrepend(d, [], Other(id));
    assert [d] + [] == [d];
  }

  /** After a delete the id is gone for good: neither the list nor the open developer holds it. */
  lemma DeletedDeveloperIsGone(s: State, id: Id)
    ensures var r := Reduce(s, DeleteFulfilled(id));
      !IsCurrent(r, id) && forall d :: d in r.developers ==> d.id != id
  {
    var r := Reduce(s, DeleteFulfilled(id));
    forall d | d in r.developers ensures d.id != id {
      var i :| 0 <= i < |r.developers| && r.developers[i] == d;
    }
  }
}

=== FILE: developers_page.dfy ===
/** The developers page: the add/edit form, its field updates, and who may manage the team. */
module DevelopersPage {
  import opened Wrappers
  import opened Text
  import AuthSlice
  import DeveloperSlice

  /** A form field: a text value, or a nested object of text values. */
  datatype Field = Text(text: string) | Group(fields: map<string, string>)

  /** The form data: top-level keys to fields. */
  type Form = map<string, Field>

  const DefaultRole: string := "Full Stack Developer"

  const InitialForm: Form := map[
    "name" := Text(""),
    "role" := Text(DefaultRole),
    "socialLinks" := Group(map["github" := "", "linkedin" := "", "instagram" := ""])]

  /** The page state around the form: the chosen photo, its preview, edit mode, the developer
      being edited, and whether the form is open. */
  datatype Page = Page(form: Form, photoChosen: bool, preview: Option<string>, isEditing: bool, selected: Option<Id>, showModal: bool)

  /** The text before the first '.', or the whole name when it has none. */
  function BeforeDot(name: string): (r: string)
    ensures |r| <= |name| && r == name[..|r|] && '.' !in r
    ensures |r| < |name| ==> name[|r|] == '.'
    ensures '.' !in name ==> r == name
  {
    if |name| == 0 || name[0] == '.' then "" else [name[0]] + BeforeDot(name[1..])
  }

  /** The text after the first '.'. */
  function AfterDot(name: string): (r: string)
    requires '.' in name
    ensures name == BeforeDot(name) + "." + r
  {
    var i := |BeforeDot(name)|;
    assert name == name[..i] + [name[i]] + name[i + 1..];
    name[i + 1..]
  }

  /** `name.split('.')` read as `[parent, child]`: the first and second segments. */
  function Parent(name: string): string {
    BeforeDot(name)
  }

  function Child(name: string): string
    requires '.' in name
  {
    BeforeDot(AfterDot(name))
  }

  /** Spreading a string into an object gives one key per index, the index in decimal, with
      the character at that index. */
  function CharKeys(s: string): (r: map<string, string>)
    ensures forall i :: 0 <= i < |s| ==> NatToString(i) in r && r[NatToString(i)] == [s[i]]
    ensures forall k :: k in r ==> exists i :: 0 <= i < |s| && k == NatToString(i)
  {
    NatToStringInjectiveAll();
    map i | 0 <= i < |s| :: NatToString(i) := [s[i]]
  }

  /** `{ ...prev[parent] }`: a missing field spreads to nothing, a nested object to its
      entries, and a text value to its characters. */
  function Spread(f: Option<Field>): map<string, string> {
    match f
    case None => map[]
    case Some(Group(m)) => m
    case Some(Text(s)) => CharKeys(s)
  }

  function Lookup(form: Form, key: string): Option<Field> {
    if key in form then Some(form[key]) else None
  }

  /** An input change. A dotted name "p.c" sets entry c of the nested object p, keeping p's
      other entries; any other name sets that top-level field to the text. Either way, the
      other top-level fields are kept. */
  function HandleInputChange(form: Form, name: string, value: string): (r: Form)
    ensures '.' in name ==>
      var p := Parent(name);
      var old_ := Spread(Lookup(form, p));
      && r.Keys == form.Keys + {p}
      && r[p].Group?
      && r[p].fields.Keys == old_.Keys + {Child(name)}
      && r[p].fields[Child(name)] == value
      && (forall k :: k in old_ && k != Child(name) ==> r[p].fields[k] == old_[k])
    ensures '.' !in name ==> r.Keys == form.Keys + {name} && r[name] == Text(value)
    ensures forall k :: k in form && k != (if '.' in name then Parent(name) else name) ==> r[k] == form[k]
  {
    if '.' in name then
      var p := Parent(name);
      form[p := Group(Spread(Lookup(form, p))[Child(name) := value])]
    else
      form[name := Text(value)]
  }

  /** Splitting a joined name "p.c" gives back its parts, when the parent has no dot. */
  lemma {:induction false} SplitJoin(p: string, c: string)
    requires '.' !in p
    ensures '.' in p + "." + c
    ensures BeforeDot(p + "." + c) == p && AfterDot(p + "." + c) == c
  {
    var name := p + "." + c;
    assert name[|p|] == '.';
    if |p| > 0 {
      assert name[1..] == p[1..] + "." + c;
      SplitJoin(p[1..], c);
    }
  }

  /** A social-link input is named "socialLinks.<link>". */
  lemma SocialLinkName(link: string)
    requires '.' !in link
    ensures '.' in "socialLinks." + link
    ensures Parent("socialLinks." + link) == "socialLinks" && Child("socialLinks." + link) == link
  {
    assert '.' !in "socialLinks";
    SplitJoin("socialLinks", link);
  }

  /** On the initial form, a social-link input changes exactly that link. */
  lemma SocialLinkEdit(link: string, value: string)
    requires link in InitialForm["socialLinks"].fields && '.' !in link
    ensures HandleInputChange(InitialForm, "socialLinks." + link, value) ==
      InitialForm["socialLinks" := Group(InitialForm["socialLinks"].fields[link := value])]
  {
    SocialLinkName(link);
    var r := HandleInputChange(InitialForm, "socialLinks." + link, value);
    assert r == InitialForm["socialLinks" := Group(Spread(Lookup(InitialForm, "socialLinks"))[link := value])];
    assert Spread(Lookup(InitialForm, "socialLinks")) == InitialForm["socialLinks"].fields;
  }

  lemma SmallIndices()
    ensures NatToString(0) == "0" && NatToString(1) == "1"
  {
  }

  lemma TwoEntries(m: map<string, string>)
    requires forall k :: k in m ==> k == "0" || k == "1"
    requires "0" in m && "1" in m && m["0"] == "a" && m["1"] == "b"
    ensures m == map["0" := "a", "1" := "b"]
  {
    assert m.Keys == {"0", "1"};
  }

  /** The string "ab" spreads to {"0": "a", "1": "b"}. */
  lemma TwoCharKeys()
    ensures CharKeys("ab") == map["0" := "a", "1" := "b"]
  {
    SmallIndices();
    var m := CharKeys("ab");
    forall k | k in m ensures k == "0" || k == "1" {
      var i :| 0 <= i < 2 && k == NatToString(i);
    }
    assert "ab"[0] == 'a' && "ab"[1] == 'b';
    TwoEntries(m);
  }

  /** A dotted name whose parent holds text turns the text into an object keyed by character
      index: "name.x" on a name "ab" gives {"0": "a", "1": "b", "x": value}. */
  lemma TextParentIsSpread(value: string)
    ensures var r := HandleInputChange(InitialForm["name" := Text("ab")], "name.x", value);
      r["name"] == Group(map["0" := "a", "1" := "b", "x" := value])
  {
    assert '.' !in "name";
    SplitJoin("name", "x");
    var form := InitialForm["name" := Text("ab")];
    assert '.' in "name.x" && Parent("name.x") == "name" && Child("name.x") == "x";
    assert Lookup(form, "name") == Some(Text("ab"));
    TwoCharKeys();
    var spread := Spread(Lookup(form, "name"));
    assert spread == map["0" := "a", "1" := "b"];
    var r := HandleInputChange(form, "name.x", value);
    assert r == form["name" := Group(spread["x" := value])];
  }

  /** Opening the form for a new developer: the initial form, no photo or preview, not in
      edit mode, nothing selected. */
  function HandleAddNew(p: Page): (r: Page)
    ensures r.form == InitialForm && !r.photoChosen && r.preview.None?
    ensures !r.isEditing && r.selected.None? && r.showModal
  {
    Page(InitialForm, false, None, false, None, true)
  }

  function LinkOr(links: Option<DeveloperSlice.Links>, pick: DeveloperSlice.Links -> Option<string>): string {
    if links.Some? then StringOr(pick(links.value), "") else ""
  }

  /** Opening the form on a developer: the form has the fields of the initial form, filled
      from the developer, with a missing or empty role read as the default role and missing
      links as empty; the preview is the photo URL when there is one; edit mode is on with
      the developer selected. */
  function HandleEdit(p: Page, dev: DeveloperSlice.Developer): (r: Page)
    ensures r.form.Keys == InitialForm.Keys
    ensures r.form["name"] == Text(dev.name)
    ensures r.form["role"] == Text(StringOr(dev.role, DefaultRole))
    ensures r.form["socialLinks"].Group? && r.form["socialLinks"].fields.Keys == InitialForm["socialLinks"].fields.Keys
    ensures dev.socialLinks.None? ==> r.form["socialLinks"] == InitialForm["socialLinks"]
    ensures dev.socialLinks.Some? ==>
      var links := dev.socialLinks.value;
      && r.form["socialLinks"].fields["github"] == StringOr(links.github, "")
      && r.form["socialLinks"].fields["linkedin"] == StringOr(links.linkedin, "")
      && r.form["socialLinks"].fields["instagram"] == StringOr(links.instagram, "")
    ensures r.preview.Some? <==> dev.photoUrl.Some? && dev.photoUrl.value != ""
    ensures r.preview.Some? ==> r.preview == dev.photoUrl
    ensures r.isEditing && r.selected == Some(dev.id) && r.showModal && !r.photoChosen
  {
    var links := dev.socialLinks;
    var form := map[
      "name" := Text(dev.name),
      "role" := Text(StringOr(dev.role, DefaultRole)),
      "socialLinks" := Group(map[
        "github" := LinkOr(links, (l: DeveloperSlice.Links) => l.github),
        "linkedin" := LinkOr(links, (l: DeveloperSlice.Links) => l.linkedin),
        "instagram" := LinkOr(links, (l: DeveloperSlice.Links) => l.instagram)])];
    var preview := if dev.photoUrl.Some? && dev.photoUrl.value != "" then dev.photoUrl else None;
    Page(form, false, preview, true, Some(dev.id), true)
  }

  /** Editing a developer with no role, links or photo shows the same form as adding one,
      apart from the name, and differs from it only in edit mode and selection. */
  lemma EditOfBareDeveloperLooksNew(p: Page, dev: DeveloperSlice.Developer)
    requires dev.role.None? && dev.socialLinks.None? && dev.photoUrl.None?
    ensures HandleEdit(p, dev).form == InitialForm["name" := Text(dev.name)]
    ensures HandleEdit(p, dev) == HandleAddNew(p).(form := InitialForm["name" := Text(dev.name)], isEditing := true, selected := Some(dev.id))
  {
  }

  /** Who may manage the team: a user whose role is "admin" or who carries the admin flag. */
  function IsAdmin(user: Option<AuthSlice.User>): (r: bool)
    ensures r <==> user.Some? && (user.value.role == Some("admin") || user.value.isAdmin)
  {
    match user
    case None => false
    case Some(u) => u.role == Some("admin") || u.isAdmin
  }
}

=== FILE: discussion.dfy ===
/** The discussion page: tweets from the tweet slice, and a page-local map from tweet id to
    that tweet's comments, loaded on demand and kept up to date by the page's own handlers. */
module Discussion {
  import opened Wrappers
  import opened Text
  import Lists
  import TweetSlice
  import Posts
  import opened CommentSlice

  /** The page-local state: loaded comment lists, expanded tweets, comment drafts by tweet id,
      reply drafts by `${tweetId}-${commentId}`, and the comment being replied to. */
  datatype Page = Page(
    comments: map<Id, seq<Comment>>,
    expanded: set<Id>,
    commentDrafts: map<Id, string>,
    replyDrafts: map<string, string>,
    replyingTo: Option<Id>)

  /** `tweetComments[tweetId] || []` */
  function Loaded(comments: map<Id, seq<Comment>>, tweetId: Id): seq<Comment> {
    if tweetId in comments then comments[tweetId] else []
  }

  function IsReplyTo(commentId: Id): Comment -> bool {
    (c: Comment) => c.parent == Some(commentId)
  }

  function TopLevelTest(): Comment -> bool {
    (c: Comment) => IsTopLevel(c)
  }

  /** The replies shown under a comment: the loaded comments whose parent is that comment,
      in list order, and none for a tweet whose comments are not loaded. */
  function Replies(comments: map<Id, seq<Comment>>, tweetId: Id, commentId: Id): (r: seq<Comment>)
    ensures tweetId !in comments ==> r == []
    ensures forall i :: 0 <= i < |r| ==> r[i].parent == Some(commentId) && r[i] in Loaded(comments, tweetId)
    ensures forall c :: c in Loaded(comments, tweetId) && c.parent == Some(commentId) ==> c in r
  {
    Lists.Filter(Loaded(comments, tweetId), IsReplyTo(commentId))
  }

  /** The comments shown at the top of a tweet's thread: those without a parent. */
  function TopLevel(comments: map<Id, seq<Comment>>, tweetId: Id): (r: seq<Comment>)
    ensures tweetId !in comments ==> r == []
    ensures forall i :: 0 <= i < |r| ==> IsTopLevel(r[i]) && r[i] in Loaded(comments, tweetId)
    ensures forall c :: c in Loaded(comments, tweetId) && IsTopLevel(c) ==> c in r
  {
    Lists.Filter(Loaded(comments, tweetId), TopLevelTest())
  }

  /** Every loaded comment belongs to exactly one view: the top level, or the replies of its
      own parent and of no other comment. The page draws a reply only under a parent it has
      drawn, so a reply whose parent is not loaded belongs to a view that is never shown. */
  lemma EveryCommentHasOneView(comments: map<Id, seq<Comment>>, tweetId: Id, c: Comment)
    requires c in Loaded(comments, tweetId)
    ensures c in TopLevel(comments, tweetId) <==> c.parent.None?
    ensures c.parent.Some? ==> c in Replies(comments, tweetId, c.parent.value)
    ensures forall p :: c in Replies(comments, tweetId, p) ==> c.parent == Some(p)
  {
    var top := TopLevel(comments, tweetId);
    if c in top {
      var i :| 0 <= i < |top| && top[i] == c;
    }
    forall p | c in Replies(comments, tweetId, p) ensures c.parent == Some(p) {
      var rs := Replies(comments, tweetId, p);
      var i :| 0 <= i < |rs| && rs[i] == c;
    }
  }

  /** The views keep the list's order and multiplicity: the view of two concatenated lists
      is the view of the first followed by the view of the second... */
  lemma ViewsOfConcatenation(xs: seq<Comment>, ys: seq<Comment>, tweetId: Id, commentId: Id)
    ensures TopLevel(map[tweetId := xs + ys], tweetId) ==
      TopLevel(map[tweetId := xs], tweetId) + TopLevel(map[tweetId := ys], tweetId)
    ensures Replies(map[tweetId := xs + ys], tweetId, commentId) ==
      Replies(map[tweetId := xs], tweetId, commentId) + Replies(map[tweetId := ys], tweetId, commentId)
  {
    Lists.FilterAppend(xs, ys, TopLevelTest());
    Lists.FilterAppend(xs, ys, IsReplyTo(commentId));
  }

  /** ... and the view of one comment is that comment when it belongs there, else nothing.
      With the lemma above this determines each view completely. */
  lemma ViewsOfOne(c: Comment, tweetId: Id, commentId: Id)
    ensures TopLevel(map[tweetId := [c]], tweetId) == if IsTopLevel(c) then [c] else []
    ensures Replies(map[tweetId := [c]], tweetId, commentId) == if c.parent == Some(commentId) then [c] else []
  {
    assert [c][1..] == [];
  }

  /** The count shown next to a tweet: the length of the loaded list (an empty list is
      truthy), else the tweet's `commentsCount || 0`. */
  function CommentCount(comments: map<Id, seq<Comment>>, tweetId: Id, commentsCount: Option<int>): (n: int)
    ensures tweetId in comments ==> n == |comments[tweetId]|
    ensures tweetId !in comments && commentsCount.Some? ==> n == commentsCount.value
    ensures tweetId !in comments && commentsCount.None? ==> n == 0
  {
    if tweetId in comments then |comments[tweetId]| else commentsCount.GetOr(0)
  }

  /** The outcome of a handler: the new page and the content sent to the server, if any. */
  datatype Outcome = Outcome(page: Page, sent: Option<string>)

  /** `prev[key]?.trim()` for a draft map. */
  function TrimmedDraft<K>(drafts: map<K, string>, key: K): string {
    if key in drafts then Trim(drafts[key]) else ""
  }

  /** Prepends a new comment to a tweet's list, creating the list if it is not loaded. */
  function PrependTo(comments: map<Id, seq<Comment>>, tweetId: Id, c: Comment): (r: map<Id, seq<Comment>>)
    ensures r.Keys == comments.Keys + {tweetId}
    ensures r[tweetId] == [c] + Loaded(comments, tweetId)
    ensures forall t :: t in comments && t != tweetId ==> r[t] == comments[t]
  {
    comments[tweetId := [c] + Loaded(comments, tweetId)]
  }

  /** Adding a comment: a missing or whitespace-only draft sends nothing and changes nothing;
      otherwise the trimmed draft is sent, and on success the new comment is put first and
      the draft cleared, while a failure leaves the page as it was. */
  function HandleAddComment(p: Page, tweetId: Id, answer: Answer<Comment>): (r: Outcome)
    ensures TrimmedDraft(p.commentDrafts, tweetId) == "" ==> r == Outcome(p, None)
    ensures TrimmedDraft(p.commentDrafts, tweetId) != "" ==> r.sent == Some(TrimmedDraft(p.commentDrafts, tweetId))
    ensures r.sent.Some? && answer.Answered? ==>
      && r.page.comments == PrependTo(p.comments, tweetId, answer.body)
      && r.page.commentDrafts == p.commentDrafts[tweetId := ""]
      && r.page.replyDrafts == p.replyDrafts && r.page.replyingTo == p.replyingTo
    ensures answer.Failed? ==> r.page == p
  {
    var content := TrimmedDraft(p.commentDrafts, tweetId);
    if content == "" then Outcome(p, None)
    else match answer
      case Answered(c) =>
        Outcome(p.(comments := PrependTo(p.comments, tweetId, c), commentDrafts := p.commentDrafts[tweetId := ""]), Some(content))
      case Failed(_) => Outcome(p, Some(content))
  }

  /** The key of a reply draft: `${tweetId}-${commentId}`. */
  function ReplyKey(tweetId: Id, commentId: Id): string {
    tweetId + "-" + commentId
  }

  /** Replying to a comment: as for a comment, but the draft is the reply draft of that
      comment, and a successful reply also closes the reply box. */
  function HandleReply(p: Page, tweetId: Id, commentId: Id, answer: Answer<Comment>): (r: Outcome)
    ensures TrimmedDraft(p.replyDrafts, ReplyKey(tweetId, commentId)) == "" ==> r == Outcome(p, None)
    ensures TrimmedDraft(p.replyDrafts, ReplyKey(tweetId, commentId)) != "" ==>
      r.sent == Some(TrimmedDraft(p.replyDrafts, ReplyKey(tweetId, commentId)))
    ensures r.sent.Some? && answer.Answered? ==>
      && r.page.comments == PrependTo(p.comments, tweetId, answer.body)
      && r.page.replyDrafts == p.replyDrafts[ReplyKey(tweetId, commentId) := ""]
      && r.page.commentDrafts == p.commentDrafts && r.page.replyingTo == None
    ensures answer.Failed? ==> r.page == p
  {
    var key := ReplyKey(tweetId, commentId);
    var content := TrimmedDraft(p.replyDrafts, key);
    if content == "" then Outcome(p, None)
    else match answer
      case Answered(c) =>
        Outcome(p.(comments := PrependTo(p.comments, tweetId, c), replyDrafts := p.replyDrafts[key := ""], replyingTo := None), Some(content))
      case Failed(_) => Outcome(p, Some(content))
  }

  /** A new top-level comment heads the tweet's top-level list and leaves every reply list
      as it was. */
  lemma AddedCommentHeadsThread(comments: map<Id, seq<Comment>>, tweetId: Id, c: Comment, other: Id)
    requires IsTopLevel(c)
    ensures TopLevel(PrependTo(comments, tweetId, c), tweetId) == [c] + TopLevel(comments, tweetId)
    ensures Replies(PrependTo(comments, tweetId, c), tweetId, other) == Replies(comments, tweetId, other)
  {
    Lists.FilterPrepend(c, Loaded(comments, tweetId), TopLevelTest());
    Lists.FilterPrepend(c, Loaded(comments, tweetId), IsReplyTo(other));
  }

  /** A new reply heads its parent's reply list; the top-level list and the reply lists of
      every other comment stay as they were. */
  lemma ReplyHeadsItsParentsReplies(comments: map<Id, seq<Comment>>, tweetId: Id, reply: Comment, other: Id)
    requires reply.parent.Some?
    ensures Replies(PrependTo(comments, tweetId, reply), tweetId, reply.parent.value) ==
      [reply] + Replies(comments, tweetId, reply.parent.value)
    ensures other != reply.parent.value ==>
      Replies(PrependTo(comments, tweetId, reply), tweetId, other) == Replies(comments, tweetId, other)
    ensures TopLevel(PrependTo(comments, tweetId, reply), tweetId) == TopLevel(comments, tweetId)
  {
    Lists.FilterPrepend(reply, Loaded(comments, tweetId), IsReplyTo(reply.parent.value));
    Lists.FilterPrepend(reply, Loaded(comments, tweetId), IsReplyTo(other));
    Lists.FilterPrepend(reply, Loaded(comments, tweetId), TopLevelTest());
  }

  /** Opening a tweet's comments: closes them if open; otherwise opens them, and asks for a
      load exactly when that tweet's comments are not loaded. */
  function ToggleComments(p: Page, tweetId: Id): (r: (Page, bool))
    ensures tweetId in p.expanded ==> r.0 == p.(expanded := p.expanded - {tweetId}) && !r.1
    ensures tweetId !in p.expanded ==> r.0 == p.(expanded := p.expanded + {tweetId}) && (r.1 <==> tweetId !in p.comments)
  {
    if tweetId in p.expanded then (p.(expanded := p.expanded - {tweetId}), false)
    else (p.(expanded := p.expanded + {tweetId}), tweetId !in p.comments)
  }

  /** Loading a tweet's comments: the fetched list, or `[]` when the body holds none or the
      request fails, so the tweet counts as loaded either way. */
  function LoadComments(comments: map<Id, seq<Comment>>, tweetId: Id, answer: Answer<Option<seq<Comment>>>): (r: map<Id, seq<Comment>>)
    ensures r.Keys == comments.Keys + {tweetId}
    ensures answer.Answered? && answer.body.Some? ==> r[tweetId] == answer.body.value
    ensures answer.Failed? || answer.body.None? ==> r[tweetId] == []
    ensures forall t :: t in comments && t != tweetId ==> r[t] == comments[t]
  {
    match answer
    case Answered(body) => comments[tweetId := body.GetOr([])]
    case Failed(_) => comments[tweetId := []]
  }

  /** The page's own removal of a deleted comment: the comment and EVERY comment whose parent
      it is go, whether it was top-level or a reply; the rest keep their order. A failed delete
      changes nothing. The list must be loaded: the page reads it without a guard. */
  function HandleDeleteComment(comments: map<Id, seq<Comment>>, tweetId: Id, commentId: Id, deleted: bool): (r: map<Id, seq<Comment>>)
    requires tweetId in comments
    ensures !deleted ==> r == comments
    ensures r.Keys == comments.Keys
    ensures forall t :: t in comments && t != tweetId ==> r[t] == comments[t]
    ensures deleted ==>
      && (forall i :: 0 <= i < |r[tweetId]| ==>
            r[tweetId][i].id != commentId && r[tweetId][i].parent != Some(commentId) && r[tweetId][i] in comments[tweetId])
      && (forall c :: c in comments[tweetId] && c.id != commentId && c.parent != Some(commentId) ==> c in r[tweetId])
  {
    if deleted then comments[tweetId := Lists.Filter(comments[tweetId], SurvivesDelete(commentId, true))]
    else comments
  }

  /** The page's delete keeps the survivors' order and multiplicity: from two concatenated
      lists it keeps the survivors of the first followed by those of the second, and a single
      comment stays as itself exactly when it is neither the deleted comment nor its reply. */
  lemma {:induction false} PageDeleteKeepsOrder(comments: map<Id, seq<Comment>>, tweetId: Id, commentId: Id, a: seq<Comment>, b: seq<Comment>, c: Comment)
    ensures HandleDeleteComment(comments[tweetId := a + b], tweetId, commentId, true)[tweetId]
         == HandleDeleteComment(comments[tweetId := a], tweetId, commentId, true)[tweetId]
          + HandleDeleteComment(comments[tweetId := b], tweetId, commentId, true)[tweetId]
    ensures HandleDeleteComment(comments[tweetId := [c]], tweetId, commentId, true)[tweetId]
         == if c.id != commentId && c.parent != Some(commentId) then [c] else []
  {
    var keep := SurvivesDelete(commentId, true);
    Lists.FilterAppend(a, b, keep);
    Lists.FilterPrepend(c, [], keep);
    assert [c] + [] == [c];
  }

  /** The page cascades where the slice does not: deleting a reply also removes the reply's
      own replies, which the slice's delete keeps. */
  lemma PageCascadesFromReplies(list: seq<Comment>, tweetId: Id, k: nat, g: Comment)
    requires k < |list| && Lists.IsFirst(list, HasId(list[k].id), k) && !IsTopLevel(list[k])
    requires g in list && g.parent == Some(list[k].id) && g.id != list[k].id
    ensures g in ApplyDelete(State(List(list), false, None), list[k].id).comments.items
    ensures g !in HandleDeleteComment(map[tweetId := list], tweetId, list[k].id, true)[tweetId]
  {
    DeletingReplyKeepsOthers(list, k, g);
  }

  /** Liking a tweet from this page: the optimistic flip, then the server's flag on success;
      a failure is left to the slice's own rollback. */
  function HandleLikeTweet(s: TweetSlice.State, tweetId: Id, answer: Answer<bool>): (r: TweetSlice.State)
    ensures answer.Answered? ==> r == TweetSlice.Reduce(TweetSlice.Reduce(s, TweetSlice.OptimisticToggleLike(tweetId)), TweetSlice.ToggleLikeFulfilled(tweetId, answer.body))
    ensures answer.Failed? ==> r == TweetSlice.Reduce(TweetSlice.Reduce(s, TweetSlice.OptimisticToggleLike(tweetId)), TweetSlice.ToggleLikeRejected(tweetId))
  {
    var s1 := TweetSlice.Reduce(s, TweetSlice.OptimisticToggleLike(tweetId));
    match answer
    case Answered(liked) => TweetSlice.Reduce(s1, TweetSlice.ToggleLikeFulfilled(tweetId, liked))
    case Failed(_) => TweetSlice.Reduce(s1, TweetSlice.ToggleLikeRejected(tweetId))
  }

  /** A failed like leaves the tweets exactly as they were before the click. */
  lemma FailedLikeLeavesNoTrace(s: TweetSlice.State, tweetId: Id, m: Option<string>)
    requires forall i :: 0 <= i < |s.tweets| && s.tweets[i].id == tweetId ==> s.tweets[i].likesCount.Num?
    ensures HandleLikeTweet(s, tweetId, Failed(m)) == s
  {
    TweetSlice.OptimisticThenFailureRestores(s, tweetId);
  }

  /** A success that confirms the optimistic guess leaves the tweets in the optimistic state:
      the page adds nothing after the slice's own confirmation. */
  lemma ConfirmedLikeKeepsGuess(s: TweetSlice.State, tweetId: Id, k: nat, liked: bool)
    requires Lists.IsFirst(s.tweets, Posts.HasId(tweetId), k) && liked == !s.tweets[k].isLiked
    ensures HandleLikeTweet(s, tweetId, Answered(liked)) == TweetSlice.Reduce(s, TweetSlice.OptimisticToggleLike(tweetId))
  {
    TweetSlice.ConfirmationOfGuessIsNoop(s, tweetId, k, liked);
  }

  /** Opening a thread that is not loaded asks for a load; once it is loaded, the top-level
      view shows the fetched top-level comments in fetched order, the count shown is the
      fetched count and no longer the tweet's own `commentsCount`, and closing and reopening
      the thread asks for no second load. */
  lemma OpeningLoadsThreadOnce(p: Page, tweetId: Id, fetched: seq<Comment>, commentsCount: Option<int>)
    requires tweetId !in p.expanded && tweetId !in p.comments
    ensures var shown := ToggleComments(p, tweetId).0;
      var load := ToggleComments(p, tweetId).1;
      var loaded := shown.(comments := LoadComments(shown.comments, tweetId, Answered(Some(fetched))));
      && load && tweetId in shown.expanded
      && TopLevel(loaded.comments, tweetId) == Lists.Filter(fetched, TopLevelTest())
      && CommentCount(loaded.comments, tweetId, commentsCount) == |fetched|
      && ToggleComments(loaded, tweetId).0.expanded == p.expanded
      && !ToggleComments(ToggleComments(loaded, tweetId).0, tweetId).1
  {
  }

  /** Toggling twice gives back the page: the open set is restored either way. */
  lemma ToggleTwiceRestores(p: Page, tweetId: Id)
    ensures ToggleComments(ToggleComments(p, tweetId).0, tweetId).0 == p
  {
  }

  /** A failed load still marks the thread as loaded, with no comments: the count shown drops
      to 0 even when the tweet's `commentsCount` is positive, and reopening asks for no retry. */
  lemma FailedLoadShowsZero(p: Page, tweetId: Id, m: Option<string>, commentsCount: Option<int>)
    ensures var loaded := p.(comments := LoadComments(p.comments, tweetId, Failed(m)));
      && CommentCount(loaded.comments, tweetId, commentsCount) == 0
      && TopLevel(loaded.comments, tweetId) == []
      && (tweetId !in p.expanded ==> !ToggleComments(loaded, tweetId).1)
  {
  }

  /** A successful comment or reply on a loaded thread raises the count shown by one. */
  lemma AddingRaisesCount(p: Page, tweetId: Id, commentId: Id, c: Comment, commentsCount: Option<int>)
    requires tweetId in p.comments
    ensures var r := HandleAddComment(p, tweetId, Answered(c));
      r.sent.Some? ==> CommentCount(r.page.comments, tweetId, commentsCount) == CommentCount(p.comments, tweetId, commentsCount) + 1
    ensures var r := HandleReply(p, tweetId, commentId, Answered(c));
      r.sent.Some? ==> CommentCount(r.page.comments, tweetId, commentsCount) == CommentCount(p.comments, tweetId, commentsCount) + 1
  {
  }
}

=== FILE: home.dfy ===
/** The home page: the query parameters of the interview fetch built from the filters, and
    the "Clear Filters" button. */
module Home {
  import opened Wrappers

  /** The filter state: the (debounced) company search and the branch and domain choices. */
  datatype Filters = Filters(search: string, branch: string, domain: string)

  /** The choice that means no filter. */
  const All: string := "All"

  const DefaultFilters: Filters := Filters("", All, All)

  /** The parameter object before clean-up: `company` is the search or undefined when it is
      empty, and `domain` and `branch` are undefined when set to "All". */
  function RawParams(f: Filters): map<string, Option<string>> {
    map[
      "company" := if f.search != "" then Some(f.search) else None,
      "domain" := if f.domain != All then Some(f.domain) else None,
      "branch" := if f.branch != All then Some(f.branch) else None]
  }

  /** Deleting every key whose value is undefined. */
  function DropUndefined(m: map<string, Option<string>>): (r: map<string, string>)
    ensures forall k :: k in r <==> k in m && m[k].Some?
    ensures forall k :: k in r ==> m[k] == Some(r[k])
  {
    map k | k in m && m[k].Some? :: m[k].value
  }

  /** The parameters sent: a key appears exactly when its filter is set, with the filter's
      value unchanged, and no other key appears. */
  function ApiParams(f: Filters): (r: map<string, string>)
    ensures "company" in r <==> f.search != ""
    ensures "domain" in r <==> f.domain != All
    ensures "branch" in r <==> f.branch != All
    ensures "company" in r ==> r["company"] == f.search
    ensures "domain" in r ==> r["domain"] == f.domain
    ensures "branch" in r ==> r["branch"] == f.branch
    ensures r.Keys <= {"company", "domain", "branch"}
  {
    DropUndefined(RawParams(f))
  }

  /** The button shows when the branch or the domain is filtered; the search alone does
      not show it. */
  predicate ShowsClearFilters(f: Filters) {
    f.branch != All || f.domain != All
  }

  /** Clearing restores the default filters, whatever they were. */
  function ClearFilters(f: Filters): (r: Filters)
    ensures r.search == "" && r.branch == All && r.domain == All
    ensures !ShowsClearFilters(r) && ApiParams(r) == map[]
  {
    DefaultFilters
  }

  /** No two filter states send the same parameters: the parameters determine the search
      and both choices, "All" included, since "All" is the one choice that sends no key. */
  lemma SameParamsIffSameFilters(f: Filters, g: Filters)
    ensures ApiParams(f) == ApiParams(g) <==> f == g
  {
    if f == g {
      assert RawParams(f) == RawParams(g);
    }
    if ApiParams(f) == ApiParams(g) {
      assert ("company" in ApiParams(f)) == ("company" in ApiParams(g));
      assert ("domain" in ApiParams(f)) == ("domain" in ApiParams(g));
      assert ("branch" in ApiParams(f)) == ("branch" in ApiParams(g));
    }
  }
}

=== FILE: interview_slice.dfy ===
/** The interviews slice: a paginated list of interview posts plus the one currently open
    in the detail view. The same interview can sit in both places as two independent
    copies, and every like operation must change both. */
module InterviewSlice {
  import opened Wrappers
  import opened JsNumbers
  import opened Posts
  import Lists

  datatype Pagination = Pagination(page: int, limit: int, total: int)

  datatype State = State(
    interviews: seq<Post>,
    current: Option<Post>,
    pagination: Pagination,
    loading: bool,
    error: Option<string>)

  const Initial: State := State([], None, Pagination(1, 10, 0), false, None)

  /** The body of a fetched page. */
  datatype PagePayload = PagePayload(interviews: seq<Post>, page: int, limit: int, total: int)

  /** The actions the slice has a case for; a rejected thunk carries its error message. */
  datatype Action =
    | OptimisticToggleLike(interviewId: Id)
    | CreatePending | CreateFulfilled | CreateRejected(message: string)
    | GetAllPending | GetAllFulfilled(page: PagePayload) | GetAllRejected(message: string)
    | GetByIdPending | GetByIdFulfilled(interview: Post) | GetByIdRejected(message: string)
    | UpdateFulfilled(updated: Post)
    | DeleteFulfilled(deletedId: Id)
    | ToggleLikeFulfilled(likedId: Id, liked: bool)
    | ToggleLikeRejected(failedId: Id)

  /** The optimistic step on one copy: a missing or null count reads as 0, then the flag
      flips and the count moves up by one, or down by one but not below 0. */
  function ToggleLike(p: Post): (r: Post)
    ensures r.id == p.id && r.content == p.content
    ensures r.isLiked == !p.isLiked
    ensures (p.likesCount.Missing? || p.likesCount.Null?) ==> r.likesCount == Num(if p.isLiked then 0 else 1)
    ensures p.likesCount.Num? ==>
      r.likesCount == Num(if !p.isLiked then p.likesCount.n + 1
                          else if p.likesCount.n >= 1 then p.likesCount.n - 1 else 0)
    ensures p.likesCount.NaN? ==> r.likesCount.NaN?
    ensures !p.likesCount.NaN? && !(p.likesCount.Num? && p.likesCount.n < 0) ==> r.likesCount.Num? && r.likesCount.n >= 0
    ensures WellFormed(p) ==> WellFormed(r)
  {
    var c := OrZero(p.likesCount);
    if p.isLiked then p.(isLiked := false, likesCount := DecrementClamped(c))
    else p.(isLiked := true, likesCount := Plus(c, 1))
  }

  /** Reconciliation with the server's flag: a copy that already agrees is left alone,
      otherwise the flag is taken over and the count moves by exactly one, without a clamp;
      a null count moves from 0 and a missing one becomes NaN. */
  function SyncLike(p: Post, liked: bool): (r: Post)
    ensures r.id == p.id && r.content == p.content
    ensures r.isLiked == liked
    ensures p.isLiked == liked ==> r == p
    ensures p.isLiked != liked && p.likesCount.Num? ==>
      r.likesCount == Num(p.likesCount.n + (if liked then 1 else -1))
    ensures p.isLiked != liked && p.likesCount.Null? ==> r.likesCount == Num(if liked then 1 else -1)
    ensures p.isLiked != liked && (p.likesCount.Missing? || p.likesCount.NaN?) ==> r.likesCount.NaN?
    ensures WellFormed(p) ==> WellFormed(r)
  {
    if p.isLiked != liked then p.(isLiked := liked, likesCount := Plus(p.likesCount, if liked then 1 else -1))
    else p
  }

  /** The rollback step: the optimistic step without the `?? 0` default, so a null count
      still reads as 0 but a missing one becomes NaN. */
  function RollbackLike(p: Post): (r: Post)
    ensures r.id == p.id && r.content == p.content
    ensures r.isLiked == !p.isLiked
    ensures p.likesCount.Num? ==>
      r.likesCount == Num(if !p.isLiked then p.likesCount.n + 1
                          else if p.likesCount.n >= 1 then p.likesCount.n - 1 else 0)
    ensures p.likesCount.Null? ==> r.likesCount == Num(if p.isLiked then 0 else 1)
    ensures (p.likesCount.Missing? || p.likesCount.NaN?) ==> r.likesCount.NaN?
    ensures p.likesCount.Num? && p.likesCount.n >= 0 ==> r.likesCount.n >= 0
    ensures WellFormed(p) ==> WellFormed(r)
  {
    if p.isLiked then p.(isLiked := false, likesCount := DecrementClamped(p.likesCount))
    else p.(isLiked := true, likesCount := Plus(p.likesCount, 1))
  }

  /** On a consistent copy the rollback undoes the optimistic step exactly. */
  lemma RollbackUndoesToggle(p: Post)
    requires WellFormed(p)
    ensures RollbackLike(ToggleLike(p)) == p
  {
  }

  datatype LikeStep = Toggle | Sync(liked: bool) | Rollback

  function ApplyStep(step: LikeStep, p: Post): (r: Post)
    ensures r.id == p.id && r.content == p.content
    ensures WellFormed(p) ==> WellFormed(r)
  {
    match step
    case Toggle => ToggleLike(p)
    case Sync(liked) => SyncLike(p, liked)
    case Rollback => RollbackLike(p)
  }

  predicate IsDetailCopy(s: State, id: Id) {
    s.current.Some? && s.current.value.id == id
  }

  /** Every cached copy of the interview: the first list entry with the id, then the detail
      copy when its id matches. The two are always distinct slots of the state tree. */
  function Copies(s: State, id: Id): (r: seq<Post>)
    ensures |r| <= 2
    ensures forall i :: 0 <= i < |r| ==> r[i].id == id
  {
    (match Lists.FindFirst(s.interviews, HasId(id))
     case None => []
     case Some(k) => [s.interviews[k]])
    + (if IsDetailCopy(s, id) then [s.current.value] else [])
  }

  /** One like step applied to every copy: the first list entry with the id and the detail
      copy when its id matches receive the same step; no other entry and no other field
      changes. */
  function UpdateCopies(s: State, id: Id, step: LikeStep): (r: State)
    ensures |r.interviews| == |s.interviews|
    ensures forall i :: 0 <= i < |s.interviews| ==>
      r.interviews[i] == if Lists.IsFirst(s.interviews, HasId(id), i) then ApplyStep(step, s.interviews[i]) else s.interviews[i]
    ensures IsDetailCopy(s, id) ==> r.current == Some(ApplyStep(step, s.current.value))
    ensures !IsDetailCopy(s, id) ==> r.current == s.current
    ensures r.pagination == s.pagination && r.loading == s.loading && r.error == s.error
  {
    var list :=
      match Lists.FindFirst(s.interviews, HasId(id))
      case None => s.interviews
      case Some(k) => s.interviews[k := ApplyStep(step, s.interviews[k])];
    var detail := if IsDetailCopy(s, id) then Some(ApplyStep(step, s.current.value)) else s.current;
    s.(interviews := list, current := detail)
  }

  function Reduce(s: State, a: Action): (r: State)
    ensures a.CreateFulfilled? ==>
      r.interviews == s.interviews && r.current == s.current && !r.loading && r.error == None
    ensures a.GetAllFulfilled? ==>
      && r.interviews == a.page.interviews
      && r.pagination == Pagination(a.page.page, a.page.limit, a.page.total)
      && r.current == s.current && !r.loading
    ensures a.GetByIdPending? ==> r.current == None && r.loading && r.interviews == s.interviews
    ensures a.GetByIdFulfilled? ==> r.current == Some(a.interview) && !r.loading && r.interviews == s.interviews
    ensures a.UpdateFulfilled? ==>
      && r.current == Some(a.updated)
      && |r.interviews| == |s.interviews|
      && (forall k :: Lists.IsFirst(s.interviews, HasId(a.updated.id), k) ==> r.interviews[k] == a.updated)
      && (forall i :: 0 <= i < |s.interviews| && !Lists.IsFirst(s.interviews, HasId(a.updated.id), i) ==>
            r.interviews[i] == s.interviews[i])
    ensures a.DeleteFulfilled? ==>
      && (forall i :: 0 <= i < |r.interviews| ==> r.interviews[i].id != a.deletedId && r.interviews[i] in s.interviews)
      && (forall i :: 0 <= i < |s.interviews| && s.interviews[i].id != a.deletedId ==> s.interviews[i] in r.interviews)
      && (r.current == if IsDetailCopy(s, a.deletedId) then None else s.current)
    ensures (a.CreateRejected? || a.GetAllRejected? || a.GetByIdRejected?) ==>
      r == s.(loading := false, error := Some(a.message))
    ensures (a.OptimisticToggleLike? || a.ToggleLikeFulfilled? || a.ToggleLikeRejected?) ==>
      r.pagination == s.pagination && r.loading == s.loading && r.error == s.error
  {
    match a
    case OptimisticToggleLike(id) => UpdateCopies(s, id, Toggle)
    case CreatePending => s.(loading := true)
    case CreateFulfilled => s.(loading := false, error := None)
    case CreateRejected(m) => s.(loading := false, error := Some(m))
    case GetAllPending => s.(loading := true)
    case GetAllFulfilled(page) =>
      s.(loading := false, interviews := page.interviews, pagination := Pagination(page.page, page.limit, page.total))
    case GetAllRejected(m) => s.(loading := false, error := Some(m))
    case GetByIdPending => s.(loading := true, current := None)
    case GetByIdFulfilled(p) => s.(loading := false, current := Some(p))
    case GetByIdRejected(m) => s.(loading := false, error := Some(m))
    case UpdateFulfilled(p) =>
      s.(loading := false, current := Some(p), interviews := Lists.ReplaceFirst(s.interviews, HasId(p.id), p))
    case DeleteFulfilled(id) =>
      s.(loading := false,
         interviews := Lists.Filter(s.interviews, (p: Post) => p.id != id),
         current := if IsDetailCopy(s, id) then None else s.current)
    case ToggleLikeFulfilled(id, liked) => UpdateCopies(s, id, Sync(liked))
    case ToggleLikeRejected(id) => UpdateCopies(s, id, Rollback)
  }

  /** Deleting keeps the survivors' order and multiplicity: from two concatenated lists it
      keeps the survivors of the first followed by those of the second, and a single
      interview stays as itself exactly when its id differs. */
  lemma {:induction false} DeleteKeepsOrder(s: State, a: seq<Post>, b: seq<Post>, p: Post, id: Id)
    ensures Reduce(s.(interviews := a + b), DeleteFulfilled(id)).interviews
         == Reduce(s.(interviews := a), DeleteFulfilled(id)).interviews
          + Reduce(s.(interviews := b), DeleteFulfilled(id)).interviews
    ensures Reduce(s.(interviews := [p]), DeleteFulfilled(id)).interviews == if p.id == id then [] else [p]
  {
    var keep := (q: Post) => q.id != id;
    Lists.FilterAppend(a, b, keep);
    Lists.FilterPrepend(p, [], keep);
    assert [p] + [] == [p];
  }

  /** Two lists with the same ids position by position have their first match at the
      same index. */
  lemma SameIdsSameFirst(a: seq<Post>, b: seq<Post>, id: Id)
    requires |a| == |b| && forall i :: 0 <= i < |a| ==> a[i].id == b[i].id
    ensures forall k :: Lists.IsFirst(a, HasId(id), k) <==> Lists.IsFirst(b, HasId(id), k)
  {
    forall k | 0 <= k < |a|
      ensures Lists.IsFirst(a, HasId(id), k) <==> Lists.IsFirst(b, HasId(id), k)
    {
      assert forall j :: 0 <= j < k ==> (HasId(id)(a[j]) <==> HasId(id)(b[j]));
    }
  }

  /** Two like steps in a row act on the same copies: the first list match and the
      matching detail copy each receive both steps, and nothing else changes. */
  lemma UpdateCopiesTwice(s: State, id: Id, first: LikeStep, second: LikeStep)
    ensures var r := UpdateCopies(UpdateCopies(s, id, first), id, second);
      && |r.interviews| == |s.interviews|
      && (forall i :: 0 <= i < |s.interviews| ==>
            r.interviews[i] == if Lists.IsFirst(s.interviews, HasId(id), i)
                               then ApplyStep(second, ApplyStep(first, s.interviews[i]))
                               else s.interviews[i])
      && (IsDetailCopy(s, id) ==> r.current == Some(ApplyStep(second, ApplyStep(first, s.current.value))))
      && (!IsDetailCopy(s, id) ==> r.current == s.current)
      && r.pagination == s.pagination && r.loading == s.loading && r.error == s.error
  {
    var s1 := UpdateCopies(s, id, first);
    SameIdsSameFirst(s.interviews, s1.interviews, id);
  }

  /** Failure after the optimistic step restores both copies, flag and count, provided
      they were consistent before (assuming no other like on the same interview in between). */
  lemma OptimisticThenRollbackRestores(s: State, id: Id)
    requires forall i :: 0 <= i < |Copies(s, id)| ==> WellFormed(Copies(s, id)[i])
    ensures Reduce(Reduce(s, OptimisticToggleLike(id)), ToggleLikeRejected(id)) == s
  {
    var s1 := UpdateCopies(s, id, Toggle);
    assert Reduce(s, OptimisticToggleLike(id)) == s1;
    assert Reduce(s1, ToggleLikeRejected(id)) == UpdateCopies(s1, id, Rollback);
    var r := UpdateCopies(s1, id, Rollback);
    UpdateCopiesTwice(s, id, Toggle, Rollback);
    match Lists.FindFirst(s.interviews, HasId(id)) {
      case None =>
      case Some(k) =>
        assert Copies(s, id)[0] == s.interviews[k];
        RollbackUndoesToggle(s.interviews[k]);
        Lists.FirstIsUniqueAll(s.interviews, HasId(id), k);
    }
    assert r.interviews == s.interviews;
    if IsDetailCopy(s, id) {
      assert Copies(s, id)[|Copies(s, id)| - 1] == s.current.value;
      RollbackUndoesToggle(s.current.value);
    }
  }

  /** A confirmation whose flag equals the optimistic guess on every copy changes nothing:
      the "sync, do not re-toggle" rule never adjusts a count twice. */
  lemma ConfirmationOfGuessIsNoop(s: State, id: Id, liked: bool)
    requires forall i :: 0 <= i < |Copies(s, id)| ==> Copies(s, id)[i].isLiked != liked
    ensures var s1 := Reduce(s, OptimisticToggleLike(id));
      Reduce(s1, ToggleLikeFulfilled(id, liked)) == s1
  {
    var s1 := UpdateCopies(s, id, Toggle);
    assert Reduce(s, OptimisticToggleLike(id)) == s1;
    assert Reduce(s1, ToggleLikeFulfilled(id, liked)) == UpdateCopies(s1, id, Sync(liked));
    var r := UpdateCopies(s1, id, Sync(liked));
    UpdateCopiesTwice(s, id, Toggle, Sync(liked));
    match Lists.FindFirst(s.interviews, HasId(id)) {
      case None =>
      case Some(k) =>
        assert Copies(s, id)[0] == s.interviews[k];
        Lists.FirstIsUniqueAll(s.interviews, HasId(id), k);
    }
    assert r.interviews == s1.interviews;
    if IsDetailCopy(s, id) {
      assert Copies(s, id)[|Copies(s, id)| - 1] == s.current.value;
    }
  }

  /** When the list copy and the detail copy agree on the like state, every like action
      leaves them agreeing. */
  lemma CopiesStayInAgreement(s: State, id: Id, step: LikeStep)
    requires |Copies(s, id)| == 2 && SameLikeState(Copies(s, id)[0], Copies(s, id)[1])
    ensures var r := UpdateCopies(s, id, step);
      |Copies(r, id)| == 2 && SameLikeState(Copies(r, id)[0], Copies(r, id)[1])
  {
    var r := UpdateCopies(s, id, step);
    SameIdsSameFirst(s.interviews, r.interviews, id);
    var k := Lists.FindFirst(s.interviews, HasId(id)).value;
    assert Copies(s, id) == [s.interviews[k], s.current.value];
    assert Copies(r, id) == [r.interviews[k], r.current.value];
    var a, b := s.interviews[k], s.current.value;
    assert a.isLiked == b.isLiked && a.likesCount == b.likesCount;
    assert SameLikeState(ApplyStep(step, a), ApplyStep(step, b)) by {
      match step
      case Toggle =>
      case Sync(_) =>
      case Rollback =>
    }
  }

  predicate AllWellFormed(s: State) {
    && (forall i :: 0 <= i < |s.interviews| ==> WellFormed(s.interviews[i]))
    && (s.current.Some? ==> WellFormed(s.current.value))
  }

  /** The server records an action brings in are themselves consistent. */
  predicate PayloadWellFormed(a: Action) {
    && (a.GetAllFulfilled? ==> forall i :: 0 <= i < |a.page.interviews| ==> WellFormed(a.page.interviews[i]))
    && (a.GetByIdFulfilled? ==> WellFormed(a.interview))
    && (a.UpdateFulfilled? ==> WellFormed(a.updated))
  }

  function Run(s: State, actions: seq<Action>): State
    decreases |actions|
  {
    if |actions| == 0 then s else Run(Reduce(s, actions[0]), actions[1..])
  }

  /** Counts never go negative: from a consistent state, any sequence of actions, including
      toggles, confirmations and rollbacks in any order, keeps every copy consistent. The
      unclamped decrement of the confirmation is safe only because of this invariant. */
  lemma {:induction false} RunKeepsWellFormed(s: State, actions: seq<Action>)
    requires AllWellFormed(s)
    requires forall i :: 0 <= i < |actions| ==> PayloadWellFormed(actions[i])
    ensures AllWellFormed(Run(s, actions))
    decreases |actions|
  {
    if |actions| > 0 {
      var s1 := Reduce(s, actions[0]);
      assert PayloadWellFormed(actions[0]);
      assert AllWellFormed(s1) by {
        match actions[0]
        case DeleteFulfilled(id) =>
          assert forall i :: 0 <= i < |s1.interviews| ==> s1.interviews[i] in s.interviews;
        case UpdateFulfilled(p) =>
        case _ =>
      }
      RunKeepsWellFormed(s1, actions[1..]);
    }
  }
}

=== FILE: js_numbers.dfy ===
/** JavaScript number fields that may be missing or `null` in a server record.

    A missing field reads as `undefined`; arithmetic on `undefined` gives NaN and
    `Math.max(0, NaN)` is NaN again. A `null` field (JSON can carry `null`, never
    `undefined`) reads as 0 in arithmetic, so `null + 1` is 1 and `Math.max(0, null - 1)`
    is 0. `x ?? 0` replaces both. Counts in this client are whole numbers, so a present
    value is an `int`. */
module JsNumbers {

  datatype Count = Missing | Null | Num(n: int) | NaN

  /** `c ?? 0` */
  function OrZero(c: Count): Count {
    if c.Missing? || c.Null? then Num(0) else c
  }

  /** `c + d` for an integer literal `d` */
  function Plus(c: Count, d: int): Count {
    match c
    case Num(n) => Num(n + d)
    case Null => Num(d)
    case _ => NaN
  }

  /** `Math.max(0, c - 1)` */
  function DecrementClamped(c: Count): Count {
    match c
    case Num(n) => Num(if n - 1 < 0 then 0 else n - 1)
    case Null => Num(0)
    case _ => NaN
  }

  /** The two absent values part ways in arithmetic: `null` behaves as 0 in every operation,
      `undefined` turns every operation but `?? 0` into NaN. */
  lemma AbsentCounts(d: int)
    ensures OrZero(Null) == OrZero(Missing) == Num(0)
    ensures Plus(Null, d) == Plus(Num(0), d) && DecrementClamped(Null) == DecrementClamped(Num(0))
    ensures Plus(Missing, d).NaN? && DecrementClamped(Missing).NaN?
  {
  }
}

=== FILE: lists.dfy ===
/** The array operations the reducers are built from: `filter`, `find`/`findIndex`, and
    "assign at the found index". */
module Lists {
  import opened Wrappers

  /** `s.filter(keep)`: the entries `keep` accepts, in their original order. */
  function Filter<T>(s: seq<T>, keep: T -> bool): (r: seq<T>)
    ensures |r| <= |s|
    ensures forall i :: 0 <= i < |r| ==> keep(r[i]) && r[i] in s
    ensures forall i :: 0 <= i < |s| && keep(s[i]) ==> s[i] in r
  {
    if |s| == 0 then [] else (if keep(s[0]) then [s[0]] else []) + Filter(s[1..], keep)
  }

  /** Filtering a concatenation filters each part and keeps them in order: the order of
      the kept entries is the order they had in the input. */
  lemma {:induction false} FilterAppend<T>(a: seq<T>, b: seq<T>, keep: T -> bool)
    ensures Filter(a + b, keep) == Filter(a, keep) + Filter(b, keep)
  {
    if |a| == 0 {
      assert a + b == b;
    } else {
      assert (a + b)[1..] == a[1..] + b;
      FilterAppend(a[1..], b, keep);
    }
  }

  /** An entry put at the head of the list is the head of every filtered view that accepts it,
      and leaves every other view unchanged. */
  lemma FilterPrepend<T>(x: T, s: seq<T>, keep: T -> bool)
    ensures keep(x) ==> Filter([x] + s, keep) == [x] + Filter(s, keep)
    ensures !keep(x) ==> Filter([x] + s, keep) == Filter(s, keep)
  {
    assert ([x] + s)[1..] == s;
  }

  /** A filter that accepts every entry returns the list itself. */
  lemma {:induction false} FilterKeepsAll<T>(s: seq<T>, keep: T -> bool)
    requires forall i :: 0 <= i < |s| ==> keep(s[i])
    ensures Filter(s, keep) == s
  {
    if |s| > 0 {
      FilterKeepsAll(s[1..], keep);
    }
  }

  /** `k` is the index `s.findIndex(p)` returns: the first entry satisfying `p`. */
  predicate IsFirst<T>(s: seq<T>, p: T -> bool, k: int) {
    0 <= k < |s| && p(s[k]) && forall j :: 0 <= j < k ==> !p(s[j])
  }

  /** `s.findIndex(p)`, with `None` for JavaScript's `-1`. */
  function FindFirst<T>(s: seq<T>, p: T -> bool): (r: Option<nat>)
    ensures r.None? <==> forall i :: 0 <= i < |s| ==> !p(s[i])
    ensures r.Some? ==> IsFirst(s, p, r.value)
  {
    if |s| == 0 then None
    else if p(s[0]) then Some(0)
    else match FindFirst(s[1..], p)
      case None => None
      case Some(k) => Some(k + 1)
  }

  /** There is at most one first match. */
  lemma FirstIsUniqueAll<T>(s: seq<T>, p: T -> bool, k: int)
    requires IsFirst(s, p, k)
    ensures forall i :: IsFirst(s, p, i) <==> i == k
  {
  }

  /** `const i = s.findIndex(p); if (i !== -1) s[i] = x`: the first entry satisfying `p` is
      replaced by `x`; every other entry, and the length, are kept; without a match the list
      is returned unchanged. */
  function ReplaceFirst<T>(s: seq<T>, p: T -> bool, x: T): (r: seq<T>)
    ensures |r| == |s|
    ensures (forall i :: 0 <= i < |s| ==> !p(s[i])) ==> r == s
    ensures forall k :: IsFirst(s, p, k) ==> r[k] == x
    ensures forall i :: 0 <= i < |s| && !IsFirst(s, p, i) ==> r[i] == s[i]
  {
    match FindFirst(s, p)
    case None => s
    case Some(k) => s[k := x]
  }
}

=== FILE: post_card.dfy ===
/** The post card of the interview list: the saved marker and the like and save buttons. */
module PostCard {
  import opened Wrappers
  import Lists
  import Posts
  import JsNumbers
  import AuthSlice
  import InterviewSlice

  function SameId(postId: Id): Id -> bool {
    (i: Id) => i == postId
  }

  /** The saved marker: the post is saved iff its id is among the user's saved ids; no user,
      or a user without saved ids, saves nothing. */
  function IsSaved(user: Option<AuthSlice.User>, postId: Id): (r: bool)
    ensures r <==> user.Some? && user.value.savedPosts.Some? && postId in user.value.savedPosts.value
  {
    var saved := if user.Some? then user.value.savedPosts.GetOr([]) else [];
    Lists.FindFirst(saved, SameId(postId)).Some?
  }

  /** What a click on the like button leads to: the interviews state after the dispatched
      actions, those actions in order, and whether the viewer was sent to the login page. */
  datatype LikeClick = LikeClick(state: InterviewSlice.State, dispatched: seq<InterviewSlice.Action>, redirected: bool)

  /** The actions a like click dispatches as the card is written: the optimistic toggle before
      the request, then the request's outcome, and after a failure the optimistic toggle again. */
  function LikeActionsAsWritten(id: Id, answer: Answer<bool>): seq<InterviewSlice.Action> {
    match answer
    case Answered(liked) => [InterviewSlice.OptimisticToggleLike(id), InterviewSlice.ToggleLikeFulfilled(id, liked)]
    case Failed(_) => [InterviewSlice.OptimisticToggleLike(id), InterviewSlice.ToggleLikeRejected(id), InterviewSlice.OptimisticToggleLike(id)]
  }

  /** The like button as written. */
  function HandleLikeAsWritten(auth: AuthSlice.State, s: InterviewSlice.State, id: Id, answer: Answer<bool>): (r: LikeClick)
    ensures !auth.isAuthenticated ==> r == LikeClick(s, [], true)
    ensures auth.isAuthenticated ==>
      !r.redirected && |r.dispatched| >= 2 && r.dispatched[0] == InterviewSlice.OptimisticToggleLike(id)
      && r.state == InterviewSlice.Run(s, r.dispatched)
  {
    if !auth.isAuthenticated then LikeClick(s, [], true)
    else
      var actions := LikeActionsAsWritten(id, answer);
      LikeClick(InterviewSlice.Run(s, actions), actions, false)
  }

  /** As written, a failed like does not leave the interviews as they were: the slice's
      rollback undoes the optimistic toggle, and the card then toggles once more, so the
      outcome is that of the optimistic toggle alone. */
  lemma FailedLikeSticks(auth: AuthSlice.State, s: InterviewSlice.State, id: Id, m: Option<string>)
    requires auth.isAuthenticated
    requires forall i :: 0 <= i < |InterviewSlice.Copies(s, id)| ==> Posts.WellFormed(InterviewSlice.Copies(s, id)[i])
    ensures HandleLikeAsWritten(auth, s, id, Failed(m)).state == InterviewSlice.Reduce(s, InterviewSlice.OptimisticToggleLike(id))
  {
    var o := InterviewSlice.OptimisticToggleLike(id);
    var s1 := InterviewSlice.Reduce(s, o);
    var s2 := InterviewSlice.Reduce(s1, InterviewSlice.ToggleLikeRejected(id));
    InterviewSlice.OptimisticThenRollbackRestores(s, id);
    assert s2 == s;
    var actions := LikeActionsAsWritten(id, Failed(m));
    assert actions[1..][1..][1..] == [];
    assert InterviewSlice.Run(s, actions) == InterviewSlice.Run(s2, [o]);
    assert InterviewSlice.Run(s2, [o]) == InterviewSlice.Reduce(s2, o);
  }

  /** A signed-in viewer who has not liked an interview with 3 likes, and whose like
      request fails, is left seeing it liked with 4 likes. */
  lemma FailedLikeSticksExample()
    ensures var p := Posts.Post("a", false, JsNumbers.Num(3), "");
      var s := InterviewSlice.State([p], None, InterviewSlice.Pagination(1, 10, 1), false, None);
      var auth := AuthSlice.Initial.(isAuthenticated := true);
      HandleLikeAsWritten(auth, s, "a", Failed(None)).state.interviews == [Posts.Post("a", true, JsNumbers.Num(4), "")]
  {
    var p := Posts.Post("a", false, JsNumbers.Num(3), "");
    var s := InterviewSlice.State([p], None, InterviewSlice.Pagination(1, 10, 1), false, None);
    var auth := AuthSlice.Initial.(isAuthenticated := true);
    assert Lists.IsFirst(s.interviews, Posts.HasId("a"), 0);
    assert InterviewSlice.Copies(s, "a") == [p];
    FailedLikeSticks(auth, s, "a", None);
  }

  /** The actions of a like click as evidently intended: the failure is left to the slice's
      rollback. */
  function LikeActions(id: Id, answer: Answer<bool>): seq<InterviewSlice.Action> {
    match answer
    case Answered(liked) => [InterviewSlice.OptimisticToggleLike(id), InterviewSlice.ToggleLikeFulfilled(id, liked)]
    case Failed(_) => [InterviewSlice.OptimisticToggleLike(id), InterviewSlice.ToggleLikeRejected(id)]
  }

  /** The like button without the second toggle. */
  function HandleLike(auth: AuthSlice.State, s: InterviewSlice.State, id: Id, answer: Answer<bool>): (r: LikeClick)
    ensures !auth.isAuthenticated ==> r == LikeClick(s, [], true)
    ensures auth.isAuthenticated ==>
      !r.redirected && |r.dispatched| == 2 && r.dispatched[0] == InterviewSlice.OptimisticToggleLike(id)
      && r.state == InterviewSlice.Run(s, r.dispatched)
  {
    if !auth.isAuthenticated then LikeClick(s, [], true)
    else
      var actions := LikeActions(id, answer);
      LikeClick(InterviewSlice.Run(s, actions), actions, false)
  }

  /** Without the second toggle, a failed like leaves the interviews exactly as they were. */
  lemma FailedLikeRestores(auth: AuthSlice.State, s: InterviewSlice.State, id: Id, m: Option<string>)
    requires auth.isAuthenticated
    requires forall i :: 0 <= i < |InterviewSlice.Copies(s, id)| ==> Posts.WellFormed(InterviewSlice.Copies(s, id)[i])
    ensures HandleLike(auth, s, id, Failed(m)).state == s
  {
    var s1 := InterviewSlice.Reduce(s, InterviewSlice.OptimisticToggleLike(id));
    var s2 := InterviewSlice.Reduce(s1, InterviewSlice.ToggleLikeRejected(id));
    InterviewSlice.OptimisticThenRollbackRestores(s, id);
    var actions := LikeActions(id, Failed(m));
    assert actions[1..][1..] == [];
    assert InterviewSlice.Run(s, actions) == InterviewSlice.Run(s2, []);
  }

  /** A successful like whose answer agrees with the optimistic guess keeps the guess. */
  lemma ConfirmedLikeKeepsGuess(auth: AuthSlice.State, s: InterviewSlice.State, id: Id, liked: bool)
    requires auth.isAuthenticated
    requires forall i :: 0 <= i < |InterviewSlice.Copies(s, id)| ==> InterviewSlice.Copies(s, id)[i].isLiked != liked
    ensures HandleLike(auth, s, id, Answered(liked)).state == InterviewSlice.Reduce(s, InterviewSlice.OptimisticToggleLike(id))
  {
    var s1 := InterviewSlice.Reduce(s, InterviewSlice.OptimisticToggleLike(id));
    var s2 := InterviewSlice.Reduce(s1, InterviewSlice.ToggleLikeFulfilled(id, liked));
    InterviewSlice.ConfirmationOfGuessIsNoop(s, id, liked);
    var actions := LikeActions(id, Answered(liked));
    assert actions[1..][1..] == [];
    assert InterviewSlice.Run(s, actions) == InterviewSlice.Run(s2, []);
  }

  /** What a click on the save button leads to: the auth state afterwards, the post whose save
      was requested, and whether the viewer was sent to the login page. */
  datatype SaveClick = SaveClick(auth: AuthSlice.State, requested: Option<Id>, redirected: bool)

  /** The save button: signed out, it only redirects; signed in, it asks to toggle the save
      of this post, takes the saved ids the server answers with, and on failure changes
      nothing. */
  function HandleSaveToggle(auth: AuthSlice.State, postId: Id, answer: Answer<Option<seq<Id>>>): (r: SaveClick)
    ensures !auth.isAuthenticated ==> r == SaveClick(auth, None, true)
    ensures auth.isAuthenticated ==> !r.redirected && r.requested == Some(postId)
    ensures answer.Failed? ==> r.auth == auth
    ensures r.auth.isAuthenticated == auth.isAuthenticated
    ensures auth.isAuthenticated && answer.Answered? && auth.user.Some? ==>
      (IsSaved(r.auth.user, postId) <==> answer.body.Some? && postId in answer.body.value)
  {
    if !auth.isAuthenticated then SaveClick(auth, None, true)
    else match answer
      case Answered(saved) => SaveClick(AuthSlice.Reduce(auth, AuthSlice.SavePostFulfilled(saved)), Some(postId), false)
      case Failed(_) => SaveClick(auth, Some(postId), false)
  }
}

=== FILE: posts.dfy ===
/** The likeable records held by the interview and tweet slices. */
module Posts {
  import opened Wrappers
  import opened JsNumbers

  /** A post (interview experience or tweet) as far as the like logic sees it: its id, the
      viewer's like flag, the like counter (possibly missing from the server record) and the
      rest of the record, which no like operation touches. */
  datatype Post = Post(id: Id, isLiked: bool, likesCount: Count, content: string)

  /** The consistency the like logic relies on: a present, non-negative count that includes
      the viewer's own like. */
  predicate WellFormed(p: Post) {
    p.likesCount.Num? && p.likesCount.n >= 0 && (p.isLiked ==> p.likesCount.n >= 1)
  }

  /** The like state of a post: the two fields an optimistic toggle changes. */
  predicate SameLikeState(p: Post, q: Post) {
    p.isLiked == q.isLiked && p.likesCount == q.likesCount
  }

  /** `(p) => p._id === id` */
  function HasId(id: Id): Post -> bool {
    (p: Post) => p.id == id
  }

  /** An interview post as the saved-posts and my-posts lists hold it, reduced to the fields
      the search reads; each may be missing, and `authorName` is `author?.name`. */
  datatype Summary = Summary(
    id: Id, company: Option<string>, role: Option<string>, domain: Option<string>, authorName: Option<string>)
}

=== FILE: refresh_gate.dfy ===
/** The response interceptor of the shared HTTP client: a single-flight gate that renews the
    session cookie once when requests fail with HTTP 401 "Unauthorized" (section 15.5.2 of
    RFC 9110), parks every other 401 that arrives meanwhile, and releases them all when the
    renewal settles.

    The interceptor is written as an explicit state machine. Its module-level variables
    `isRefreshing` and `failedQueue` become the `refreshing` flag and the `waiters` queue;
    the request whose 401 started the renewal, which awaits the renewal in its own async
    frame, is the `originator`. Network answers arrive as events, and what the
    interceptor does to the promises of requests (reject, re-issue, issue the renewal) is
    returned as a list of effects, in the order the interceptor settles them. */
module RefreshGate {
  import opened Wrappers
  import Text

  /** The renewal endpoint; a failing request whose URL contains it never starts a renewal. */
  const RefreshPath: string := "/users/refresh-tokens"

  const Unauthorized: int := 401

  /** An axios request config: an identity for the logical request, its URL (possibly unset)
      and the `_retry` mark the interceptor sets. */
  datatype Request = Request(id: nat, url: Option<string>, retried: bool)

  /** A rejected request as the interceptor sees it: the request and, unless no response
      arrived at all (a network error), the HTTP status. */
  datatype Failure = Failure(request: Request, status: Option<int>)

  /** What a rejected promise carries: the request's own error, or the renewal's error. */
  datatype Error = Original(failure: Failure) | RefreshError(reason: string)

  datatype Event =
    | RequestFailed(failure: Failure)
    | RefreshSucceeded
    | RefreshFailed(reason: string)

  /** A `Reissue` of a waiter is the resolution of its parked promise, whose `.then` sends
      the request again later; a `Reissue` of the originator is its immediate
      `return api(originalRequest)`. */
  datatype Effect =
    | Reject(request: Request, error: Error)
    | Reissue(request: Request)
    | IssueRefresh

  /** `refreshCalls` counts renewal calls ever issued and `settled` those that have answered;
      both are observations for stating the single-flight guarantee. */
  datatype Gate = Gate(
    refreshing: bool,
    originator: Option<Request>,
    waiters: seq<Request>,
    refreshCalls: nat,
    settled: nat)

  datatype Transition = Transition(gate: Gate, effects: seq<Effect>)

  const Initial: Gate := Gate(false, None, [], 0, 0)

  /** The three-part guard of the interceptor: status 401, not yet retried, and not the
      renewal call itself (an unset URL never contains the renewal path). */
  predicate StartsRenewal(f: Failure) {
    && f.status == Some(Unauthorized)
    && !f.request.retried
    && !(f.request.url.Some? && Text.Contains(f.request.url.value, RefreshPath))
  }

  /** The reachable states: the flag is set exactly while an originator awaits the renewal,
      the queue is empty whenever no renewal runs, every held request is already marked
      retried, and at most one renewal is in flight. */
  predicate Inv(g: Gate) {
    && (g.refreshing <==> g.originator.Some?)
    && (!g.refreshing ==> g.waiters == [])
    && (g.originator.Some? ==> g.originator.value.retried)
    && (forall i :: 0 <= i < |g.waiters| ==> g.waiters[i].retried)
    && g.refreshCalls == g.settled + (if g.refreshing then 1 else 0)
  }

  /** `processQueue(error)`: every waiter is released in queue order, its promise resolved
      (so that it is re-issued once released) when there is no error, rejected with the
      renewal error otherwise. */
  function ProcessQueue(waiters: seq<Request>, error: Option<string>): (r: seq<Effect>)
    ensures |r| == |waiters|
    ensures error.None? ==> forall i :: 0 <= i < |r| ==> r[i] == Reissue(waiters[i])
    ensures error.Some? ==> forall i :: 0 <= i < |r| ==> r[i] == Reject(waiters[i], RefreshError(error.value))
  {
    if |waiters| == 0 then []
    else
      var head := if error.None? then Reissue(waiters[0]) else Reject(waiters[0], RefreshError(error.value));
      [head] + ProcessQueue(waiters[1..], error)
  }

  function Settle(g: Gate, error: Option<string>): Transition {
    var own :=
      if g.originator.None? then []
      else if error.None? then [Reissue(g.originator.value)]
      else [Reject(g.originator.value, RefreshError(error.value))];
    Transition(Gate(false, None, [], g.refreshCalls, g.settled + 1), ProcessQueue(g.waiters, error) + own)
  }

  /** One step of the interceptor. A renewal answer while no renewal runs cannot occur, as
      only the renewal that set the flag answers; such an event is ignored. */
  function Step(g: Gate, e: Event): (t: Transition)
    // a failure without a response, and any failure the guard refuses, is rejected as is
    ensures e.RequestFailed? && !StartsRenewal(e.failure) ==>
      t.gate == g && t.effects == [Reject(e.failure.request, Original(e.failure))]
    // a qualifying 401 during a renewal is parked, marked, and issues no second renewal
    ensures e.RequestFailed? && StartsRenewal(e.failure) && g.refreshing ==>
      && t.effects == []
      && t.gate.refreshCalls == g.refreshCalls
      && t.gate.waiters == g.waiters + [e.failure.request.(retried := true)]
      && t.gate.refreshing && t.gate.originator == g.originator
    // a qualifying 401 while idle issues exactly one renewal and becomes its originator
    ensures e.RequestFailed? && StartsRenewal(e.failure) && !g.refreshing ==>
      && t.effects == [IssueRefresh]
      && t.gate.refreshCalls == g.refreshCalls + 1
      && t.gate.refreshing && t.gate.originator == Some(e.failure.request.(retried := true))
      && t.gate.waiters == g.waiters
    // a renewal answer clears the flag and the queue, whatever its outcome
    ensures !e.RequestFailed? && g.refreshing ==>
      !t.gate.refreshing && t.gate.waiters == [] && t.gate.originator.None?
      && t.gate.settled == g.settled + 1 && t.gate.refreshCalls == g.refreshCalls
    // on success each waiter is released for re-issue, then the originator is re-issued
    ensures e.RefreshSucceeded? && g.refreshing && g.originator.Some? ==>
      && |t.effects| == |g.waiters| + 1
      && (forall i :: 0 <= i < |g.waiters| ==> t.effects[i] == Reissue(g.waiters[i]))
      && t.effects[|g.waiters|] == Reissue(g.originator.value)
    // on failure each waiter, then the originator, is rejected with the renewal error
    ensures e.RefreshFailed? && g.refreshing && g.originator.Some? ==>
      && |t.effects| == |g.waiters| + 1
      && (forall i :: 0 <= i < |g.waiters| ==> t.effects[i] == Reject(g.waiters[i], RefreshError(e.reason)))
      && t.effects[|g.waiters|] == Reject(g.originator.value, RefreshError(e.reason))
    ensures !e.RequestFailed? && !g.refreshing ==> t == Transition(g, [])
    ensures Inv(g) ==> Inv(t.gate)
  {
    match e
    case RequestFailed(f) =>
      if f.status.None? then
        Transition(g, [Reject(f.request, Original(f))])
      else if !StartsRenewal(f) then
        Transition(g, [Reject(f.request, Original(f))])
      else
        var marked := f.request.(retried := true);
        if g.refreshing then
          Transition(g.(waiters := g.waiters + [marked]), [])
        else
          Transition(g.(refreshing := true, originator := Some(marked), refreshCalls := g.refreshCalls + 1), [IssueRefresh])
    case RefreshSucceeded =>
      if g.refreshing then Settle(g, None) else Transition(g, [])
    case RefreshFailed(reason) =>
      if g.refreshing then Settle(g, Some(reason)) else Transition(g, [])
  }

  /** Every request the gate re-issues carries the retry mark. */
  lemma ReissuedRequestsAreMarked(g: Gate, e: Event)
    requires Inv(g)
    ensures forall i :: 0 <= i < |Step(g, e).effects| && Step(g, e).effects[i].Reissue? ==>
      Step(g, e).effects[i].request.retried
  {
    var t := Step(g, e);
    if !e.RequestFailed? && g.refreshing {
      var own := if e.RefreshSucceeded? then Reissue(g.originator.value)
                 else Reject(g.originator.value, RefreshError(e.reason));
      assert t.effects == ProcessQueue(g.waiters, if e.RefreshSucceeded? then None else Some(e.reason)) + [own];
    }
  }

  /** A re-issued request that fails again with 401 is rejected outright: each logical
      request is retried at most once, whatever the gate is doing. */
  lemma RetryAtMostOnce(g: Gate, r: Request, status: Option<int>)
    requires r.retried
    ensures Step(g, RequestFailed(Failure(r, status))) ==
      Transition(g, [Reject(r, Original(Failure(r, status)))])
  {
  }

  /** The state after a sequence of events. */
  function Run(g: Gate, events: seq<Event>): Gate
    decreases |events|
  {
    if |events| == 0 then g else Run(Step(g, events[0]).gate, events[1..])
  }

  /** Every state reachable from the initial one satisfies the invariant; in particular no
      two renewals are ever in flight at once. */
  lemma {:induction false} RunKeepsInv(g: Gate, events: seq<Event>)
    requires Inv(g)
    ensures Inv(Run(g, events))
    ensures Run(g, events).refreshCalls <= Run(g, events).settled + 1
    decreases |events|
  {
    if |events| > 0 {
      RunKeepsInv(Step(g, events[0]).gate, events[1..]);
    }
  }

  function Failures(fs: seq<Failure>): seq<Event> {
    seq(|fs|, i requires 0 <= i < |fs| => RequestFailed(fs[i]))
  }

  /** Single flight: while a renewal runs, any number of qualifying 401s are all parked in
      arrival order and no further renewal is issued. */
  lemma {:induction false} BurstWhileRefreshing(g: Gate, fs: seq<Failure>)
    requires g.refreshing
    requires forall i :: 0 <= i < |fs| ==> StartsRenewal(fs[i])
    ensures var g' := Run(g, Failures(fs));
      && g'.refreshing && g'.originator == g.originator
      && g'.refreshCalls == g.refreshCalls
      && |g'.waiters| == |g.waiters| + |fs|
      && g.waiters <= g'.waiters
      && forall i :: 0 <= i < |fs| ==> g'.waiters[|g.waiters| + i] == fs[i].request.(retried := true)
    decreases |fs|
  {
    if |fs| > 0 {
      var g1 := Step(g, RequestFailed(fs[0])).gate;
      assert Failures(fs)[1..] == Failures(fs[1..]);
      BurstWhileRefreshing(g1, fs[1..]);
      var g' := Run(g1, Failures(fs[1..]));
      forall i | 0 <= i < |fs|
        ensures g'.waiters[|g.waiters| + i] == fs[i].request.(retried := true)
      {
        if i > 0 {
          assert g'.waiters[|g1.waiters| + (i - 1)] == fs[1..][i - 1].request.(retried := true);
        } else {
          assert g'.waiters[|g.waiters|] == g1.waiters[|g.waiters|];
        }
      }
    }
  }

  /** N >= 1 requests that all fail with a qualifying 401 while idle share one renewal call.
      When it settles, the interceptor settles each of the N exactly once, in a fixed order:
      the N - 1 that were parked, in arrival order, then the first one, which started the
      renewal. All of them carry the retry mark. On success they are all re-issued (the parked
      ones once their promises run); on failure they are all
      rejected with the renewal error. Either way the gate is idle again. */
  lemma ConcurrentExpiryRenewsOnce(g: Gate, fs: seq<Failure>, reason: string)
    requires Inv(g) && !g.refreshing
    requires |fs| >= 1
    requires forall i :: 0 <= i < |fs| ==> StartsRenewal(fs[i])
    ensures var g' := Run(g, Failures(fs));
      var ok := Step(g', RefreshSucceeded);
      var err := Step(g', RefreshFailed(reason));
      && g'.refreshCalls == g.refreshCalls + 1
      && |ok.effects| == |fs| && |err.effects| == |fs|
      && (forall k :: 0 <= k < |fs| - 1 ==> ok.effects[k] == Reissue(fs[k + 1].request.(retried := true)))
      && ok.effects[|fs| - 1] == Reissue(fs[0].request.(retried := true))
      && (forall k :: 0 <= k < |fs| - 1 ==>
            err.effects[k] == Reject(fs[k + 1].request.(retried := true), RefreshError(reason)))
      && err.effects[|fs| - 1] == Reject(fs[0].request.(retried := true), RefreshError(reason))
      && !ok.gate.refreshing && !err.gate.refreshing
      && ok.gate.refreshCalls == g.refreshCalls + 1 && err.gate.refreshCalls == g.refreshCalls + 1
  {
    var g1 := Step(g, RequestFailed(fs[0])).gate;
    assert g1.waiters == [] && g1.originator == Some(fs[0].request.(retried := true));
    assert Failures(fs)[1..] == Failures(fs[1..]);
    assert Run(g, Failures(fs)) == Run(g1, Failures(fs[1..]));
    BurstWhileRefreshing(g1, fs[1..]);
    var g' := Run(g1, Failures(fs[1..]));
    assert forall k :: 0 <= k < |fs| - 1 ==> g'.waiters[k] == fs[k + 1].request.(retried := true) by {
      forall k | 0 <= k < |fs| - 1 ensures g'.waiters[k] == fs[k + 1].request.(retried := true) {
        assert g'.waiters[|g1.waiters| + k] == fs[1..][k].request.(retried := true);
      }
    }
  }
}

=== FILE: reset_password.dfy ===
/** The reset-password form's submit: local validation before the reset request. */
module ResetPassword {
  import opened Wrappers
  import opened Text

  const MismatchMessage: string := "Passwords do not match"
  const TooShortMessage: string := "Password must be at least 6 characters"

  /** The minimum password length, counted in UTF-16 code units as `String.length` does. */
  const MinLength: nat := 6

  /** The reset request: the token from the page's route (possibly missing) and the password. */
  datatype ResetRequest = ResetRequest(token: Option<string>, password: string)

  /** The form after a submit: the local error shown, and the request dispatched, if any. */
  datatype Submitted = Submitted(localError: string, dispatched: Option<ResetRequest>)

  /** A submit checks that the two entries agree, then that the password is long enough, and
      only then clears the local error and dispatches the reset; a failed check shows its
      message and sends nothing. */
  function HandleSubmit(token: Option<string>, password: string, confirmPassword: string): (r: Submitted)
    ensures r.dispatched.Some? <==> password == confirmPassword && Utf16Length(password) >= MinLength
    ensures r.dispatched.Some? ==> r.dispatched.value == ResetRequest(token, password) && r.localError == ""
    ensures password != confirmPassword ==> r.localError == MismatchMessage
    ensures password == confirmPassword && Utf16Length(password) < MinLength ==> r.localError == TooShortMessage
    ensures r.dispatched.None? ==> r.localError != ""
  {
    if password != confirmPassword then Submitted(MismatchMessage, None)
    else if Utf16Length(password) < MinLength then Submitted(TooShortMessage, None)
    else Submitted("", Some(ResetRequest(token, password)))
  }

  /** An illustration of the order of the checks, which `HandleSubmit` states for all inputs:
      a short password that does not match its confirmation is reported as a mismatch, and
      one that matches as too short. */
  lemma MismatchTakesPrecedence()
    ensures HandleSubmit(None, "abc", "abd").localError == MismatchMessage
    ensures HandleSubmit(None, "abc", "abc").localError == TooShortMessage
  {
    assert "abc" != "abd" by { assert "abc"[2] != "abd"[2]; }
  }

  /** A character outside the basic plane counts two code units, so three such characters
      already pass the length check. */
  lemma LengthCountsCodeUnits()
    ensures HandleSubmit(None, "\U{1F600}\U{1F600}\U{1F600}", "\U{1F600}\U{1F600}\U{1F600}").dispatched.Some?
  {
    var p := "\U{1F600}\U{1F600}\U{1F600}";
    assert p[1..][1..][1..] == [];
  }
}

=== FILE: saved_posts.dfy ===
/** The saved-posts page: the client-side search over the user's saved interviews and the
    empty state shown when nothing is listed. */
module SavedPosts {
  import opened Wrappers
  import opened Text
  import opened Posts
  import Lists

  /** The query the search runs: the search box lower-cased, then trimmed. */
  function Query(search: string): string {
    Trim(Lower(search))
  }

  /** `field?.toLowerCase().includes(q)`: a missing field matches nothing. */
  predicate FieldMatches(field: Option<string>, q: string) {
    field.Some? && Contains(Lower(field.value), q)
  }

  /** Whether a post stays listed: every post for an empty query, otherwise a post whose
      company, role, domain or author name contains the query, ignoring case. */
  predicate Keeps(q: string, p: Summary) {
    q == "" || FieldMatches(p.company, q) || FieldMatches(p.role, q) || FieldMatches(p.domain, q) || FieldMatches(p.authorName, q)
  }

  function KeepFor(q: string): Summary -> bool {
    (p: Summary) => Keeps(q, p)
  }

  /** The listed posts: exactly the saved posts the query keeps, in their saved order; an
      empty or whitespace-only query lists them all. */
  function FilteredPosts(posts: seq<Summary>, search: string): (r: seq<Summary>)
    ensures Query(search) == "" ==> r == posts
    ensures forall i :: 0 <= i < |r| ==> r[i] in posts && Keeps(Query(search), r[i])
    ensures forall i :: 0 <= i < |posts| && Keeps(Query(search), posts[i]) ==> posts[i] in r
  {
    var q := Query(search);
    Lists.FilterKeepsAll(posts, KeepFor(""));
    Lists.Filter(posts, KeepFor(q))
  }

  /** The search keeps the saved order and lists each match once: searching a list made of
      two parts lists the matches of the first part before those of the second, and a single
      post is listed as itself exactly when the query keeps it. */
  lemma {:induction false} FilteredPostsKeepOrder(a: seq<Summary>, b: seq<Summary>, p: Summary, search: string)
    ensures FilteredPosts(a + b, search) == FilteredPosts(a, search) + FilteredPosts(b, search)
    ensures FilteredPosts([p], search) == if Keeps(Query(search), p) then [p] else []
  {
    Lists.FilterAppend(a, b, KeepFor(Query(search)));
    Lists.FilterPrepend(p, [], KeepFor(Query(search)));
    assert [p] + [] == [p];
  }

  /** The empty state: its message, and whether it offers to clear the search. */
  datatype EmptyState = EmptyState(message: string, offersClearSearch: bool)

  /** The empty state is shown when the page is neither loading nor failed and no post is
      listed. Its message says whether nothing is saved at all or nothing matches, which
      depends on the saved list alone; the clear button appears when the trimmed search box
      is not empty. */
  function Empty(loading: bool, failed: bool, posts: seq<Summary>, search: string): (r: Option<EmptyState>)
    ensures r.Some? <==> !loading && !failed && |FilteredPosts(posts, search)| == 0
    ensures r.Some? ==> (r.value.message == "No saved experiences yet." <==> |posts| == 0)
    ensures r.Some? ==> (r.value.offersClearSearch <==> Trim(search) != "")
  {
    if !loading && !failed && |FilteredPosts(posts, search)| == 0 then
      Some(EmptyState(
        if |posts| == 0 then "No saved experiences yet." else "No saved experiences match your search.",
        Trim(search) != ""))
    else None
  }

  /** The "match your search" empty state only ever shows with a non-blank query, and clearing
      the search dismisses it: with an empty search box every saved post is listed again. */
  lemma ClearingSearchDismissesEmpty(posts: seq<Summary>, search: string)
    requires |posts| > 0
    ensures Empty(false, false, posts, search).Some? ==> Query(search) != ""
    ensures Empty(false, false, posts, "").None?
  {
    assert Lower("") == "";
    assert Query("") == "";
  }
}

=== FILE: text.dfy ===
/** The few JavaScript string operations the client relies on, over `string` = `seq<char>`. */
module Text {

  /** The characters `String.prototype.trim` removes: ECMAScript WhiteSpace (TAB, VT, FF,
      ZWNBSP and every Unicode space separator) and LineTerminator (LF, CR, LS, PS). */
  predicate IsJsWhitespace(c: char) {
    || c == '\t' || c == '\n' || c == '\U{000B}' || c == '\U{000C}' || c == '\r' || c == ' '
    || c == '\U{00A0}' || c == '\U{1680}' || ('\U{2000}' <= c <= '\U{200A}')
    || c == '\U{2028}' || c == '\U{2029}' || c == '\U{202F}' || c == '\U{205F}'
    || c == '\U{3000}' || c == '\U{FEFF}'
  }

  function TrimStart(s: string): (r: string)
    ensures |r| <= |s| && r == s[|s| - |r|..]
    ensures forall i :: 0 <= i < |s| - |r| ==> IsJsWhitespace(s[i])
    ensures |r| > 0 ==> !IsJsWhitespace(r[0])
  {
    if |s| > 0 && IsJsWhitespace(s[0]) then TrimStart(s[1..]) else s
  }

  function TrimEnd(s: string): (r: string)
    ensures |r| <= |s| && r == s[..|r|]
    ensures forall i :: |r| <= i < |s| ==> IsJsWhitespace(s[i])
    ensures |r| > 0 ==> !IsJsWhitespace(r[|r| - 1])
  {
    if |s| > 0 && IsJsWhitespace(s[|s| - 1]) then TrimEnd(s[..|s| - 1]) else s
  }

  /** `r` is the slice of `s` that starts at index `i`. */
  predicate SliceAt(s: string, r: string, i: int) {
    0 <= i <= |s| - |r| && r == s[i..i + |r|]
  }

  /** `r` is the slice of `s` at index `i` with only whitespace before and after it. */
  predicate TrimmedAt(s: string, r: string, i: int) {
    && SliceAt(s, r, i)
    && (forall k :: 0 <= k < i ==> IsJsWhitespace(s[k]))
    && (forall k :: i + |r| <= k < |s| ==> IsJsWhitespace(s[k]))
  }

  /** `s.trim()`: the slice of `s` left after dropping leading and trailing whitespace. */
  function Trim(s: string): (r: string)
    ensures exists i :: TrimmedAt(s, r, i)
    ensures |r| > 0 ==> !IsJsWhitespace(r[0]) && !IsJsWhitespace(r[|r| - 1])
    ensures |r| == 0 <==> forall i :: 0 <= i < |s| ==> IsJsWhitespace(s[i])
  {
    var t := TrimStart(s);
    var r := TrimEnd(t);
    TrimSlices(s, t, r);
    r
  }

  lemma TrimSlices(s: string, t: string, r: string)
    requires |t| <= |s| && t == s[|s| - |t|..]
    requires forall i :: 0 <= i < |s| - |t| ==> IsJsWhitespace(s[i])
    requires |r| <= |t| && r == t[..|r|]
    requires forall i :: |r| <= i < |t| ==> IsJsWhitespace(t[i])
    requires |r| > 0 ==> !IsJsWhitespace(r[|r| - 1])
    ensures TrimmedAt(s, r, |s| - |t|)
    ensures |r| == 0 <==> forall i :: 0 <= i < |s| ==> IsJsWhitespace(s[i])
  {
    var d := |s| - |t|;
    assert forall k :: 0 <= k < |r| ==> r[k] == s[d + k];
    forall k | d + |r| <= k < |s| ensures IsJsWhitespace(s[k]) {
      assert s[k] == t[k - d];
    }
    if |r| == 0 {
      forall i | 0 <= i < |s| ensures IsJsWhitespace(s[i]) {
        if i >= d {
          assert s[i] == t[i - d];
        }
      }
    } else {
      assert s[d + |r| - 1] == r[|r| - 1];
    }
  }

  /** The contract of `Trim` determines its result: any string that is a slice of `s` with
      only whitespace around it, that does not start or end with whitespace, and that is empty
      exactly when `s` is all whitespace, is `Trim(s)`. */
  lemma TrimIsDetermined(s: string, r: string, i: int)
    requires TrimmedAt(s, r, i)
    requires |r| > 0 ==> !IsJsWhitespace(r[0]) && !IsJsWhitespace(r[|r| - 1])
    requires |r| == 0 <==> forall k :: 0 <= k < |s| ==> IsJsWhitespace(s[k])
    ensures r == Trim(s)
  {
    var t := Trim(s);
    var j :| TrimmedAt(s, t, j);
    if |r| > 0 {
      assert |t| > 0;
      assert s[i] == r[0] && s[j] == t[0];
      assert s[i + |r| - 1] == r[|r| - 1] && s[j + |t| - 1] == t[|t| - 1];
      assert i == j;
      assert i + |r| == j + |t|;
    }
  }

  /** Lower-casing of the ASCII letters; every other character is kept. */
  function LowerChar(c: char): char {
    if 'A' <= c <= 'Z' then (c as int + 32) as char else c
  }

  /** `s.toLowerCase()`, restricted to ASCII case mapping. */
  function Lower(s: string): (r: string)
    ensures |r| == |s|
    ensures forall i :: 0 <= i < |s| ==> r[i] == LowerChar(s[i])
  {
    seq(|s|, i requires 0 <= i < |s| => LowerChar(s[i]))
  }

  /** `haystack.includes(needle)`: `needle` occurs as a contiguous slice; the empty string occurs everywhere. */
  predicate Contains(haystack: string, needle: string) {
    exists i | 0 <= i <= |haystack| - |needle| :: SliceAt(haystack, needle, i)
  }

  /** `s.length`: JavaScript counts UTF-16 code units, so a character outside the Basic
      Multilingual Plane counts twice. */
  function Utf16Length(s: string): (n: nat)
    ensures |s| <= n <= 2 * |s|
    ensures (forall i :: 0 <= i < |s| ==> s[i] as int <= 0xFFFF) ==> n == |s|
  {
    if |s| == 0 then 0 else (if s[0] as int > 0xFFFF then 2 else 1) + Utf16Length(s[1..])
  }

  function Digit(d: nat): (c: char)
    requires d < 10
    ensures '0' <= c <= '9' && c as int - '0' as int == d
  {
    ['0', '1', '2', '3', '4', '5', '6', '7', '8', '9'][d]
  }

  predicate AllDigits(s: string) {
    forall i :: 0 <= i < |s| ==> '0' <= s[i] <= '9'
  }

  /** The number a string of decimal digits denotes. */
  function DecimalValue(s: string): nat
    requires AllDigits(s)
  {
    if |s| == 0 then 0 else DecimalValue(s[..|s| - 1]) * 10 + (s[|s| - 1] as int - '0' as int)
  }

  /** `String(n)` for a natural number: its decimal digits, most significant first. */
  function NatToString(n: nat): (r: string)
    ensures 1 <= |r|
    ensures forall i :: 0 <= i < |r| ==> '0' <= r[i] <= '9'
    ensures n < 10 <==> |r| == 1
  {
    if n < 10 then [Digit(n)] else NatToString(n / 10) + [Digit(n % 10)]
  }

  /** Reading back the decimal form of a number gives the number. */
  lemma {:induction false} DecimalRoundTrip(n: nat)
    ensures AllDigits(NatToString(n)) && DecimalValue(NatToString(n)) == n
  {
    var r := NatToString(n);
    if n >= 10 {
      DecimalRoundTrip(n / 10);
      assert r[..|r| - 1] == NatToString(n / 10);
    }
  }

  /** Distinct numbers have distinct decimal forms, so the decimal forms of the indices of a
      string are distinct keys. */
  lemma NatToStringInjective(m: nat, n: nat)
    ensures NatToString(m) == NatToString(n) ==> m == n
  {
    DecimalRoundTrip(m);
    DecimalRoundTrip(n);
  }

  lemma NatToStringInjectiveAll()
    ensures forall m: nat, n: nat :: NatToString(m) == NatToString(n) ==> m == n
  {
    forall m: nat, n: nat ensures NatToString(m) == NatToString(n) ==> m == n {
      NatToStringInjective(m, n);
    }
  }
}

=== FILE: tweet_slice.dfy ===
/** The tweets slice of the discussion board: one list of tweets, no detail copy. Its like
    logic differs from the interview slice: the count is never clamped, and a confirmed like
    takes over the server's flag without touching the count. */
module TweetSlice {
  import opened Wrappers
  import opened JsNumbers
  import opened Posts
  import Lists

  datatype State = State(tweets: seq<Post>, loading: bool, error: Option<string>)

  const Initial: State := State([], false, None)

  datatype Action =
    | ClearTweetError
    | OptimisticToggleLike(tweetId: Id)
    | CreatePending | CreateFulfilled(created: Post) | CreateRejected(message: string)
    | GetAllPending | GetAllFulfilled(all: seq<Post>) | GetAllRejected(message: string)
    | GetUserTweetsPending | GetUserTweetsFulfilled(own: seq<Post>) | GetUserTweetsRejected(message: string)
    | UpdateFulfilled(updated: Post)
    | DeleteFulfilled(deletedId: Id)
    | ToggleLikeFulfilled(likedId: Id, liked: bool)
    | ToggleLikeRejected(failedId: Id)

  /** The flip used both optimistically and to roll back: the flag is negated and the count
      moves by one towards the new flag, with no clamp and no default: a null count moves
      from 0, a missing one becomes NaN. */
  function Flip(p: Post): (r: Post)
    ensures r.id == p.id && r.content == p.content
    ensures r.isLiked == !p.isLiked
    ensures p.likesCount.Num? ==> r.likesCount == Num(p.likesCount.n + (if p.isLiked then -1 else 1))
    ensures p.likesCount.Null? ==> r.likesCount == Num(if p.isLiked then -1 else 1)
    ensures (p.likesCount.Missing? || p.likesCount.NaN?) ==> r.likesCount.NaN?
  {
    var liked := !p.isLiked;
    p.(isLiked := liked, likesCount := Plus(p.likesCount, if liked then 1 else -1))
  }

  /** Without a clamp the flip is its own inverse on every present count. */
  lemma FlipTwiceRestores(p: Post)
    requires p.likesCount.Num?
    ensures Flip(Flip(p)) == p
  {
  }

  /** Applies `f` to the first tweet with the id; a missing tweet leaves the list unchanged. */
  function UpdateFirst(tweets: seq<Post>, id: Id, f: Post -> Post): (r: seq<Post>)
    ensures |r| == |tweets|
    ensures forall i :: 0 <= i < |tweets| ==>
      r[i] == if Lists.IsFirst(tweets, HasId(id), i) then f(tweets[i]) else tweets[i]
  {
    match Lists.FindFirst(tweets, HasId(id))
    case None => tweets
    case Some(k) => tweets[k := f(tweets[k])]
  }

  function TakeServerFlag(liked: bool): Post -> Post {
    (p: Post) => p.(isLiked := liked)
  }

  /** `toggleTweetLike.fulfilled`: the first tweet with the id takes over the server's flag;
      no count changes, and no other tweet changes. */
  function ConfirmLike(s: State, id: Id, liked: bool): (r: State)
    ensures r.loading == s.loading && r.error == s.error && |r.tweets| == |s.tweets|
    ensures forall i :: 0 <= i < |s.tweets| ==>
      && r.tweets[i].id == s.tweets[i].id && r.tweets[i].content == s.tweets[i].content
      && r.tweets[i].likesCount == s.tweets[i].likesCount
      && r.tweets[i].isLiked == if Lists.IsFirst(s.tweets, HasId(id), i) then liked else s.tweets[i].isLiked
  {
    s.(tweets := UpdateFirst(s.tweets, id, TakeServerFlag(liked)))
  }

  /** `updateTweets.fulfilled`: the first tweet with the same id is replaced; the length and
      every other tweet are kept, and an unknown id changes nothing. */
  function ApplyUpdate(s: State, t: Post): (r: State)
    ensures |r.tweets| == |s.tweets|
    ensures forall k :: Lists.IsFirst(s.tweets, HasId(t.id), k) ==> r.tweets[k] == t
    ensures forall i :: 0 <= i < |s.tweets| && !Lists.IsFirst(s.tweets, HasId(t.id), i) ==> r.tweets[i] == s.tweets[i]
    ensures (forall i :: 0 <= i < |s.tweets| ==> s.tweets[i].id != t.id) ==> r.tweets == s.tweets
  {
    s.(loading := false, tweets := Lists.ReplaceFirst(s.tweets, HasId(t.id), t))
  }

  /** `deleteTweet.fulfilled`: every tweet with the id goes, every other one stays. */
  function ApplyDelete(s: State, id: Id): (r: State)
    ensures forall i :: 0 <= i < |r.tweets| ==> r.tweets[i].id != id && r.tweets[i] in s.tweets
    ensures forall i :: 0 <= i < |s.tweets| && s.tweets[i].id != id ==> s.tweets[i] in r.tweets
  {
    s.(loading := false, tweets := Lists.Filter(s.tweets, (t: Post) => t.id != id))
  }

  /** Every pending case only raises `loading`; every rejected case lowers it and records the
      message with the list kept; a fulfilled fetch or create clears the error; the like
      cases flip or confirm the first match and touch neither `loading` nor the error. */
  function Reduce(s: State, a: Action): (r: State)
    ensures a.ClearTweetError? ==> r == s.(error := None)
    ensures (a.CreatePending? || a.GetAllPending? || a.GetUserTweetsPending?) ==> r == s.(loading := true)
    ensures (a.CreateRejected? || a.GetAllRejected? || a.GetUserTweetsRejected?) ==>
      r == s.(loading := false, error := Some(a.message))
    ensures a.CreateFulfilled? ==> r.tweets == [a.created] + s.tweets && r.error == None && !r.loading
    ensures a.GetAllFulfilled? ==> r.tweets == a.all && r.error == None && !r.loading
    ensures a.GetUserTweetsFulfilled? ==> r.tweets == a.own && r.error == None && !r.loading
    ensures (a.UpdateFulfilled? || a.DeleteFulfilled?) ==> !r.loading && r.error == s.error
    ensures (a.OptimisticToggleLike? || a.ToggleLikeFulfilled? || a.ToggleLikeRejected?) ==>
      r.loading == s.loading && r.error == s.error && |r.tweets| == |s.tweets|
    ensures a.OptimisticToggleLike? ==> forall i :: 0 <= i < |s.tweets| ==>
      r.tweets[i] == if Lists.IsFirst(s.tweets, HasId(a.tweetId), i) then Flip(s.tweets[i]) else s.tweets[i]
    ensures a.ToggleLikeRejected? ==> forall i :: 0 <= i < |s.tweets| ==>
      r.tweets[i] == if Lists.IsFirst(s.tweets, HasId(a.failedId), i) then Flip(s.tweets[i]) else s.tweets[i]
  {
    match a
    case ClearTweetError => s.(error := None)
    case OptimisticToggleLike(id) => s.(tweets := UpdateFirst(s.tweets, id, Flip))
    case CreatePending => s.(loading := true)
    case CreateFulfilled(t) => s.(loading := false, error := None, tweets := [t] + s.tweets)
    case CreateRejected(m) => s.(loading := false, error := Some(m))
    case GetAllPending => s.(loading := true)
    case GetAllFulfilled(ts) => s.(loading := false, error := None, tweets := ts)
    case GetAllRejected(m) => s.(loading := false, error := Some(m))
    case GetUserTweetsPending => s.(loading := true)
    case GetUserTweetsFulfilled(ts) => s.(loading := false, error := None, tweets := ts)
    case GetUserTweetsRejected(m) => s.(loading := false, error := Some(m))
    case UpdateFulfilled(t) => ApplyUpdate(s, t)
    case DeleteFulfilled(id) => ApplyDelete(s, id)
    case ToggleLikeFulfilled(id, liked) => ConfirmLike(s, id, liked)
    case ToggleLikeRejected(id) => s.(tweets := UpdateFirst(s.tweets, id, Flip))
  }

  /** Deleting keeps the survivors' order and multiplicity: from two concatenated lists it
      keeps the survivors of the first followed by those of the second, and a single tweet
      stays as itself exactly when its id differs. */
  lemma {:induction false} DeleteKeepsOrder(a: seq<Post>, b: seq<Post>, t: Post, id: Id)
    ensures var s := Reduce(State(a + b, false, None), DeleteFulfilled(id));
      s.tweets == Reduce(State(a, false, None), DeleteFulfilled(id)).tweets
                + Reduce(State(b, false, None), DeleteFulfilled(id)).tweets
    ensures Reduce(State([t], false, None), DeleteFulfilled(id)).tweets == if t.id == id then [] else [t]
  {
    var keep := (q: Post) => q.id != id;
    Lists.FilterAppend(a, b, keep);
    Lists.FilterPrepend(t, [], keep);
    assert [t] + [] == [t];
  }

  /** An optimistic like followed by a failure restores the list exactly when the tweet's
      count is present; a missing tweet makes both steps no-ops. */
  lemma OptimisticThenFailureRestores(s: State, id: Id)
    requires forall i :: 0 <= i < |s.tweets| && s.tweets[i].id == id ==> s.tweets[i].likesCount.Num?
    ensures Reduce(Reduce(s, OptimisticToggleLike(id)), ToggleLikeRejected(id)) == s
  {
    var s1 := Reduce(s, OptimisticToggleLike(id));
    var s2 := Reduce(s1, ToggleLikeRejected(id));
    forall k | 0 <= k < |s.tweets| ensures Lists.IsFirst(s1.tweets, HasId(id), k) <==> Lists.IsFirst(s.tweets, HasId(id), k) {
      assert forall j :: 0 <= j < |s.tweets| ==> s1.tweets[j].id == s.tweets[j].id;
    }
    forall i | 0 <= i < |s.tweets| ensures s2.tweets[i] == s.tweets[i] {
      if Lists.IsFirst(s.tweets, HasId(id), i) {
        FlipTwiceRestores(s.tweets[i]);
      }
    }
  }

  /** A confirmation whose flag equals the optimistic guess changes nothing. */
  lemma ConfirmationOfGuessIsNoop(s: State, id: Id, k: nat, liked: bool)
    requires Lists.IsFirst(s.tweets, HasId(id), k) && liked == !s.tweets[k].isLiked
    ensures var s1 := Reduce(s, OptimisticToggleLike(id));
      Reduce(s1, ToggleLikeFulfilled(id, liked)) == s1
  {
    FlipThenConfirm(s.tweets, id, k, liked);
    var s1 := Reduce(s, OptimisticToggleLike(id));
    assert s1 == s.(tweets := UpdateFirst(s.tweets, id, Flip));
    ConfirmUnfolds(s1, id, liked);
  }

  lemma ConfirmUnfolds(s: State, id: Id, liked: bool)
    ensures Reduce(s, ToggleLikeFulfilled(id, liked)) == s.(tweets := UpdateFirst(s.tweets, id, TakeServerFlag(liked)))
  {
  }

  lemma FlipThenConfirm(tweets: seq<Post>, id: Id, k: nat, liked: bool)
    requires Lists.IsFirst(tweets, HasId(id), k) && liked == !tweets[k].isLiked
    ensures var t1 := UpdateFirst(tweets, id, Flip);
      UpdateFirst(t1, id, TakeServerFlag(liked)) == t1
  {
    var t1 := UpdateFirst(tweets, id, Flip);
    assert Lists.IsFirst(t1, HasId(id), k);
    Lists.FirstIsUniqueAll(t1, HasId(id), k);
  }
}

=== FILE: wrappers.dfy ===
/** Optional values and success/failure results shared by every module of the model. */
module Wrappers {

  /** A value that may be absent: JavaScript's `null`/`undefined` next to a present value. */
  datatype Option<+T> = None | Some(value: T) {

    /** The value when present, otherwise `default` (the `??` and `|| []` idioms). */
    function GetOr(default: T): T {
      match this
      case Some(v) => v
      case None => default
    }
  }

  /** The outcome of a thunk: the payload it resolved with, or the message it was rejected with. */
  datatype Result<+R> = Ok(value: R) | Err(message: string)

  /** `value || fallback` for an optional string: an absent or empty string is falsy. */
  function StringOr(value: Option<string>, fallback: string): (r: string)
    ensures value.Some? && value.value != "" ==> r == value.value
    ensures value.None? || value.value == "" ==> r == fallback
  {
    if value.Some? && value.value != "" then value.value else fallback
  }

  /** The outcome of a network call, which the model takes as an input: the response body,
      or a failure carrying the server's message if there was one. */
  datatype Answer<+T> = Answered(body: T) | Failed(serverMessage: Option<string>)

  /** The type of server-assigned identifiers (`_id` strings). */
  type Id = string
}
